=== FILE: README.md ===
# MTCG battle core in Dafny

This project models the battle core of the Monster Trading Cards Game
server (a C# card-game backend). It covers the following:

- **Two battle controllers.** The weather variant
  (`Controllers/test.cs`) is the one the battle unit tests exercise. Its
  parts are the damage rule with counters, weather buffs and the elemental
  cycle; the round loop with a weather re-roll every ten rounds; the
  battle log; the Elo update; and the join operation with its deck-size
  guard and pairing queue. The plain variant
  (`Controllers/BattleController.cs`) has no weather, gives a counter the
  maximal damage value, and judges by card count after at most 100 rounds.
- **Card classification.** `Models/Card.cs` classifies a card by
  substrings of its name.
- **The plain-text HTTP response serialiser.** This is
  `Server/ResponseBuilder.cs`.

Modules, one per file:

- `Wrappers` (`wrappers.dfy`): the optional value.
- `Seqs` (`seqs.dfy`): prefix and suffix facts about sequences of any
  element type, used on strings and on battle logs alike.
- `Text` (`text.dfy`): substring search, decimal formatting and parsing of
  integers, joining and splitting. These stand in for `string.Contains`,
  `string.Join` and string interpolation. The parser accepts only the
  text the formatter writes, so a parsed number pins its digits.
- `Responses` (`responses.dfy`): `CreateResponse` and
  `CreatePlainTextResponse`, with a parser that reads a response back, as
  their round-trip partner.
- `Cards` (`cards.dfy`): the card value, the three classifiers, and the
  elemental cycle `Beats`/`CycleFactor`. The cycle is the reference
  definition that both variants' element factors are proved equal to
  whenever a spell takes part.
- `Decks` (`decks.dfy`): decks as sequences, the random draw, `List.Remove`
  and the capture of a beaten card.
- `WeatherBattle` (`weather_battle.dfy`): the weather variant's damage
  rule, round loop, log, verdict and Elo update.
- `PlainBattle` (`plain_battle.dfy`): the plain variant.
- `Matchmaking` (`matchmaking.dfy`): the weather variant's join
  operation: the deck-size guard, the pairing queue, the rating write and
  the reply.
- `Variants` (`variants.dfy`): how the two variants relate.

Randomness is modelled as a parameter:

- A `Picks` value gives, per round number, the random index drawn for each
  deck. An oracle value `k` selects card `k % |deck|`, so every draw the
  source can make is covered.
- A `Chance` value adds the initial weather and the weather drawn at each
  re-roll.
- Results are therefore stated for every possible sequence of random
  choices.

How the code behaves where a reader might expect otherwise:

- **Counters.** In the weather variant a counter makes the attacker deal
  0. The countered card therefore loses its round unless its opponent
  also deals 0: a card countered back (a card named "KrakenSpell" is both
  a spell and a Kraken, so it counters itself and two such cards draw
  their round, `WeatherBattle.MutualCounterDraws`) or a card with no
  damage. In the
  plain variant a counter deals `double.MaxValue`, so the countering card
  wins unless it is countered back. `Variants.GoblinAgainstDragon` shows
  both conventions on one match-up.
- **Verdict in the weather variant.** The verdict depends only on which
  deck is empty: player 1 without cards loses first, then player 2. Two
  non-empty decks draw whatever their sizes.
- **Rounds in the weather variant.** The loop runs `for i = 1; i < 100`,
  so at most 99 rounds are played, not 100.
- **Counters on both sides.** In the plain variant too, counters can
  cancel each other, for example two Water Knights. So a counter does not
  always decide its round (`PlainBattle.CounterWinsRound`).
- **Who receives the log.** Only the request that completes a pair gets
  the battle log. The request that was already waiting has been answered
  "Waiting for opponent".

## Model

| member | source | states |
|---|---|---|
| Responses.CreateResponse | MonsterTradingCardsGame/Server/ResponseBuilder.cs:14-20 | a response starts with the status line carrying the code and then the Content-Type header, and ends with the blank line followed by the body |
| Responses.ParseCreateResponse | MonsterTradingCardsGame/Server/ResponseBuilder.cs:14-20 | for any status code, any body and any content type without a carriage return, reading the response back yields exactly those three fields, and the Content-Length header equals the body length |
| Responses.ParseResponseExactly | MonsterTradingCardsGame/Server/ResponseBuilder.cs:14-20 | a string reads back as a status code, a content type and a body exactly when it is the response written for them and the content type holds no carriage return; so the Content-Length value is the body length in decimal with no leading zero, and the status code is written as `int.ToString()` writes it |
| Responses.LengthSectionParsed | MonsterTradingCardsGame/Server/ResponseBuilder.cs:18-19 | an accepted length section is exactly the Content-Length header carrying the body length in decimal, the space and blank line, then the body |
| Responses.TypeSectionParsed | MonsterTradingCardsGame/Server/ResponseBuilder.cs:17-19 | an accepted type section is exactly the Content-Type header carrying a type without a carriage return, followed by the length section written for the body |
| Text.ParseNatCanonical | MonsterTradingCardsGame/Server/ResponseBuilder.cs:18 | the only digit string that reads as a length `n` is the one written for `n`: no leading zero |
| Text.ParseIntExactly | MonsterTradingCardsGame/Server/ResponseBuilder.cs:16 | a string reads as the integer `i` exactly when it is the decimal text written for `i`; "-0", leading zeros and a plus sign are refused |
| Responses.CreatePlainTextResponse | MonsterTradingCardsGame/Server/ResponseBuilder.cs:29-32 | a plain-text response starts with the status line carrying the code and the Content-Type header, and ends with the blank line followed by the body |
| Responses.PlainTextRoundTrip | MonsterTradingCardsGame/Server/ResponseBuilder.cs:29-32 | a plain-text response reads back as the given status code, content type `text/plain` and the given body |
| Responses.PlainTextOk | MonsterTradingCardsGame_test/User_Card-Controller_test.cs:50 | a 201 response with body "OK" is exactly the string the controller test expects |
| Text.Contains | MonsterTradingCardsGame/Models/Card.cs:42-77 | the ordinal substring test is true exactly when the pattern occurs at some position of the name |
| Cards.DetermineMonsterType | MonsterTradingCardsGame/Models/Card.cs:42-59 | the type is None exactly when the name holds none of the seven keywords; otherwise it is the type of the first keyword, in priority order, found in the name |
| Cards.DetermineCardType | MonsterTradingCardsGame/Models/Card.cs:62-67 | a card is a Spell exactly when "Spell" occurs somewhere in its name, and a Monster otherwise |
| Cards.DetermineElementType | MonsterTradingCardsGame/Models/Card.cs:70-77 | Water exactly when the name contains "Water"; Fire exactly when it contains "Fire" and not "Water"; Normal exactly when it contains neither |
| Cards.ClassificationSurvivesAffixes | MonsterTradingCardsGame/Models/Card.cs:42-77 | adding text around a name never turns a spell into a monster, a Water card into another element, or a monster with a type into one without |
| Cards.BeatsIsATournament | MonsterTradingCardsGame/Controllers/test.cs:172-185 | of two distinct elements exactly one beats the other; a factor of 2 one way is a factor of 0.5 the other way; the factor is 1 exactly for equal elements |
| Decks.Pick | MonsterTradingCardsGame/Controllers/test.cs:83-84 | the drawn card is a card of the deck |
| Decks.EveryCardCanBePicked | MonsterTradingCardsGame/Controllers/BattleController.cs:61-66 | every card of a deck is drawn by some random index |
| Decks.RemoveFirst | MonsterTradingCardsGame/Controllers/test.cs:95 | `List.Remove` deletes exactly the first occurrence of the card, so one copy leaves the multiset; a deck without the card is unchanged |
| Decks.Capture | MonsterTradingCardsGame/Controllers/test.cs:95-96 | the captured card moves from the loser's deck to the winner's: one deck grows by it, the other shrinks by it, and the combined multiset of cards is unchanged |
| WeatherBattle.WeatherMultiplier | MonsterTradingCardsGame/Controllers/test.cs:145-167 | the weather factor is 2 exactly when the weather favours the attacker's element, and 1 otherwise |
| WeatherBattle.ElementMultiplier | MonsterTradingCardsGame/Controllers/test.cs:169-189 | the six overriding assignments agree with the elemental cycle whenever a spell takes part; between two monsters the factor is 1 |
| WeatherBattle.CalculateDamage | MonsterTradingCardsGame/Controllers/test.cs:131-143 | each of the five counter match-ups deals 0 |
| WeatherBattle.DamageFormula | MonsterTradingCardsGame/Controllers/test.cs:145-191 | outside the counter match-ups, damage is the card's damage times the cycle factor (only when a spell takes part) times 2 when the weather favours the attacker |
| WeatherBattle.CounterIgnoresWeatherAndDamage | MonsterTradingCardsGame/Controllers/test.cs:133-143 | a counter deals 0 whatever the weather and whatever the attacker's damage |
| WeatherBattle.WeatherDoublesFavouredDamage | MonsterTradingCardsGame/Controllers/test.cs:145-191 | the weather doubles a card's damage exactly when it favours the card's element and no counter applies, and otherwise leaves the damage as in neutral weather |
| WeatherBattle.DamageIsNonNegative | MonsterTradingCardsGame/Controllers/test.cs:131-191 | a card with non-negative damage never deals negative damage |
| WeatherBattle.CounteredCardLosesRound | MonsterTradingCardsGame/Controllers/test.cs:133-143 | a countered card deals strictly less than a positive-damage opponent that it does not counter, so it loses the round |
| WeatherBattle.MutualCounterDraws | MonsterTradingCardsGame/Controllers/test.cs:140 | a spell that is also a Kraken counters itself, deals nothing against itself, and two such cards leave both decks unchanged |
| WeatherBattle.DamageExamples | MonsterTradingCardsGame_test/Battle_test.cs:18-79 | the three damage cases of the unit tests give 15, 200 and 0 |
| WeatherBattle.Exchange | MonsterTradingCardsGame/Controllers/test.cs:93-108 | the card that dealt more damage captures the other card, so one deck gains it and the other loses one copy of it; equal damage changes no deck; the combined cards are conserved |
| WeatherBattle.PlayRound | MonsterTradingCardsGame/Controllers/test.cs:86-108 | a round changes the decks by the capture rule applied to the damages both cards deal in the current weather; the cards in play are conserved, the users and weather kept, the log only grows, and the round is recorded with its weather and both damages |
| WeatherBattle.PlayRoundLog | MonsterTradingCardsGame/Controllers/test.cs:86-107 | a round appends exactly three log lines: the match-up with the round number and both card names, the two damages, and the line naming the round's winner with its card, or the draw line |
| WeatherBattle.RerollLog | MonsterTradingCardsGame/Controllers/test.cs:74-78 | in a round numbered a multiple of 10 the weather becomes that round's roll and the change is logged; in any other round nothing changes; decks and round record are never touched |
| WeatherBattle.DrawAndPlay | MonsterTradingCardsGame/Controllers/test.cs:83-108 | a played round conserves the cards, keeps the users and the weather, and records exactly one round |
| WeatherBattle.DrawAndPlayRecord | MonsterTradingCardsGame/Controllers/test.cs:83-91 | a played round only appends to the log and the record; the new record carries the round number, the weather, a card from each deck and the damages `CalculateDamage` gives them |
| WeatherBattle.Iterate | MonsterTradingCardsGame/Controllers/test.cs:71-109 | the loop conserves the cards, keeps the users, plays at most one round per remaining index, and stops early only when a deck is empty |
| WeatherBattle.IterateExtends | MonsterTradingCardsGame/Controllers/test.cs:68-109 | the loop only appends to the log and to the round record, never rewriting an earlier entry |
| WeatherBattle.IterateLogsWeatherChange | MonsterTradingCardsGame/Controllers/test.cs:74-86 | whatever the decks hold, a turn of the loop numbered a multiple of 10 first logs the weather change, and any other turn logs no weather line next |
| WeatherBattle.StartBattle | MonsterTradingCardsGame/Controllers/test.cs:63-128 | a battle conserves the multiset of cards, plays at most 99 rounds, ends early only with an empty deck, opens the log with the initial weather, and closes it with the finish line, both card counts and the verdict |
| WeatherBattle.Decide | MonsterTradingCardsGame/Controllers/test.cs:115-126 | player 2 wins exactly when player 1 has no cards; player 1 wins exactly when player 1 has cards and player 2 has none; otherwise the battle is a draw |
| WeatherBattle.VerdictLine | MonsterTradingCardsGame/Controllers/test.cs:115-126 | the closing line names player 2 as winner when player 1's deck is empty, else player 1 when player 2's deck is empty, and is the draw line when both hold cards |
| WeatherBattle.CountLine | MonsterTradingCardsGame/Controllers/test.cs:112-113 | the end-of-battle line of a player reads back, through `CountOf`, as that player's number of remaining cards |
| WeatherBattle.CountOf | MonsterTradingCardsGame/Controllers/test.cs:112-113 | a count read out of a line pins the whole line: it is the player's name, " has ", the count in decimal and " cards left" |
| WeatherBattle.Summary | MonsterTradingCardsGame/Controllers/test.cs:111-126 | every log closes with the finish line; then one line per player from which that player's remaining card count reads back, which by `CountOf`'s contract makes the line exactly "<name> has <count> cards left"; then the verdict: player 2 wins when player 1's deck is empty, else player 1 wins when player 2's deck is empty, else the battle is a draw |
| WeatherBattle.WinnerHoldsEveryCard | MonsterTradingCardsGame/Controllers/test.cs:80-126 | the declared winner holds every card of the battle, and a battle that ends before round 99 always has a winner |
| WeatherBattle.LastLineIsVerdict | MonsterTradingCardsGame/Controllers/test.cs:115-126 | the last log line announces the verdict on the decks as they stand at the end |
| WeatherBattle.MirrorDecksNeverChange | MonsterTradingCardsGame/Controllers/test.cs:88-108 | two players holding one identical card each never change decks, whatever the weather and the draws |
| WeatherBattle.FirstIteration | MonsterTradingCardsGame/Controllers/test.cs:71-84 | round 1 never re-rolls the weather; with cards on both sides it is played |
| WeatherBattle.DragonTakesGoblin | MonsterTradingCardsGame_test/Battle_test.cs:46-47 | the unit test's Fire Dragon captures the Normal Goblin in round 1 in any weather |
| WeatherBattle.GoblinTestFinalDecks | MonsterTradingCardsGame_test/Battle_test.cs:44-50 | in that test player 1 ends with both cards and player 2 with none |
| WeatherBattle.WinnerExample | MonsterTradingCardsGame_test/Battle_test.cs:44-53 | whatever the random choices, the test's last log line is the verdict line "Player1 wins the battle" |
| WeatherBattle.MirrorBattleDraws | MonsterTradingCardsGame/Controllers/test.cs:88-126 | two players holding one identical card each always end with the draw line, whatever the weather and the draws |
| WeatherBattle.DrawExample | MonsterTradingCardsGame_test/Battle_test.cs:57-66 | two identical Dragons always end in the verdict line "The Battle is a Draw" |
| WeatherBattle.WeatherInForceStep | MonsterTradingCardsGame/Controllers/test.cs:73-78 | the weather changes only in rounds numbered a multiple of 10, and then takes that round's roll |
| WeatherBattle.IterateFollowsSchedule | MonsterTradingCardsGame/Controllers/test.cs:71-91 | from any point of the loop, every recorded round carries its number, the weather the ten-round schedule prescribes, and the damages `CalculateDamage` gives |
| WeatherBattle.BattleFollowsSchedule | MonsterTradingCardsGame/Controllers/test.cs:67-91 | every round of a battle is played in the initial weather up to round 9, and afterwards in the weather rolled at the last multiple of 10 |
| WeatherBattle.RerollPrecedesStop | MonsterTradingCardsGame/Controllers/test.cs:74-81 | the weather check comes before the empty-deck check: with an empty deck, a round numbered a multiple of 10 still logs a new weather, and any other round stops at once |
| WeatherBattle.UpdatePlayerStats | MonsterTradingCardsGame/Controllers/test.cs:194-209 | both users are written once, player 1 first, changed only in Elo: +3 for the player whose opponent holds no cards (player 2 checked first), -5 for that opponent, and no change when both hold cards |
| WeatherBattle.RatingFollowsVerdict | MonsterTradingCardsGame/Controllers/test.cs:196-205 | whenever a card is left on the table, the winner named by the verdict gains 3, the loser loses 5, and a draw changes nothing |
| WeatherBattle.RatingAndVerdictDisagreeOnEmptyTable | MonsterTradingCardsGame/Controllers/test.cs:115-118 | with both decks empty, the verdict names player 2 while the rating update rewards player 1 |
| WeatherBattle.RatingExamples | MonsterTradingCardsGame_test/Battle_test.cs:83-109 | the two rating unit tests give 103/95 and 115/153 |
| Matchmaking.Respond | MonsterTradingCardsGame/Controllers/test.cs:28-60 | every reply is an HTTP response whose status line carries 400 for a refused deck and 200 otherwise, followed by the Content-Type header |
| Matchmaking.RespondReadsBack | MonsterTradingCardsGame/Controllers/test.cs:28-60 | every reply reads back as a plain-text response: status 400 exactly for a refused deck with body "Invalid deck size", status 200 otherwise, with body "Waiting for opponent" for a waiting player and the rendered log lines joined by newlines for a completed battle |
| Matchmaking.LogReadsBack | MonsterTradingCardsGame/Controllers/test.cs:57 | splitting the body of a battle reply at its newlines gives one rendered line per log entry, in order, when no rendered entry holds a newline |
| Text.SplitJoin | MonsterTradingCardsGame/Controllers/test.cs:57 | joining lines that hold no separator and splitting the result at the separator gives the lines back |
| Text.JoinSplit | MonsterTradingCardsGame/Controllers/test.cs:57 | splitting a string at a separator and joining the pieces with it gives the string back |
| Matchmaking.PairBattle | MonsterTradingCardsGame/Controllers/test.cs:46-55 | the two oldest waiting players battle as player 1 and player 2, and at the end their decks together hold exactly the cards the two brought |
| Matchmaking.PairUp | MonsterTradingCardsGame/Controllers/test.cs:43-57 | pairing removes the two oldest entries and keeps the rest; the reply is that battle's log; both users are written, player 1 first, with the Elo the rating update gives for the decks as the battle left them |
| Matchmaking.BattleAsync | MonsterTradingCardsGame/Controllers/test.cs:23-61 | a deck of a size other than 4 is refused with the invalid-deck reply and the queue is untouched; alone in the queue, a player waits; otherwise the two oldest entries battle with the decks they brought and leave the queue with the rest kept in order, the reply is that battle's log, and both users are written with the Elo the rating update gives for the final decks |
| Matchmaking.AtMostOneWaits | MonsterTradingCardsGame/Controllers/test.cs:28-58 | requests served one at a time never leave more than one player waiting, every waiting deck has four cards, and a battle holds all eight cards |
| PlainBattle.ExceedsIsStrictOrder | MonsterTradingCardsGame/Controllers/BattleController.cs:32-41 | `>` on damage, with `double.MaxValue` as the top value, is irreflexive, asymmetric and transitive |
| PlainBattle.SpecialtyCheck | MonsterTradingCardsGame/Controllers/BattleController.cs:84-102 | the attacker counters exactly in four cases: Goblin vs Dragon, Wizard vs Ork, Knight vs any Water card, Kraken vs any spell; an Elf counters nothing |
| PlainBattle.GetElementMultiplier | MonsterTradingCardsGame/Controllers/BattleController.cs:104-125 | the factor is the elemental cycle's: 2 exactly when the attacker's element beats the defender's, 0.5 exactly when it is beaten |
| PlainBattle.CalculateDamage | MonsterTradingCardsGame/Controllers/BattleController.cs:68-82 | the damage is maximal exactly for a counter; otherwise it is the cycle-scaled damage when a spell takes part, and the bare damage between monsters |
| PlainBattle.CounterWinsRound | MonsterTradingCardsGame/Controllers/BattleController.cs:68-72 | a counter wins its round unless the opponent counters back, in which case neither card wins |
| PlainBattle.KnightAndElfCounters | MonsterTradingCardsGame/Controllers/BattleController.cs:92-99 | a Knight counters every Water card, spell or monster; an Elf counters nothing, Dragons included |
| PlainBattle.PlayRound | MonsterTradingCardsGame/Controllers/BattleController.cs:29-41 | the card with the higher damage captures the other card, and with neither higher both decks stay as they are; the cards are conserved |
| PlainBattle.Rounds | MonsterTradingCardsGame/Controllers/BattleController.cs:21-43 | the loop conserves the cards, plays at most 100 rounds, stops before the cap only with an empty deck, and plays nothing when a deck starts empty |
| PlainBattle.Verdict | MonsterTradingCardsGame/Controllers/BattleController.cs:45-52 | player 1 wins exactly with more cards, player 2 exactly with more cards, and equal counts draw |
| PlainBattle.VerdictMessage | MonsterTradingCardsGame/Controllers/BattleController.cs:45-52 | each outcome has its own answer text: player 1's win, player 2's win, or the draw |
| PlainBattle.StartBattleAsync | MonsterTradingCardsGame/Controllers/BattleController.cs:17-59 | the loop ends with the decks and round count of the recursive reference, conserves the cards, plays at most 100 rounds, and answers 200 with the verdict message |
| PlainBattle.BattleEndsWithWinnerOrCap | MonsterTradingCardsGame/Controllers/BattleController.cs:23-52 | with cards on both sides at least one round is played, and a battle that ends before the cap has a winner holding every card |
| Variants.ElementFactorsAgree | MonsterTradingCardsGame/Controllers/test.cs:169-189 | whenever a spell takes part, the weather variant's six assignments and the plain variant's early returns give the same element factor |
| Variants.GoblinAgainstDragon | MonsterTradingCardsGame/Controllers/test.cs:134-135 | a Goblin attacking a Dragon deals 0 and loses the round in the weather variant, but deals the maximal damage and wins it in the plain variant |

## Left out

- Concurrency in `BattleAsync`: the concurrent queue, the semaphore and
  the lock are left out. Requests are served one at a time on an explicit
  queue. The interleavings in which two requests both see fewer than two
  entries are not modelled.
- User lookup from the authorisation token and loading the deck from the
  database. The user and the deck are parameters.
- Persistence: the rating update returns the two users it would write,
  in order. Failed writes are not modelled.
- `Console.WriteLine` output is left out.
- Text of the weather and damage log lines: the model keeps the weather
  value and the two damages. A `Formatter` parameter stands for how .NET
  prints enumerations and doubles.
- The weather enumeration: its file is not part of this model. `Weather`
  has Sunny, Hot and Rain, plus `Other` for any further value, which no
  rule buffs.
- Damage is a real number. Rounding of doubles is not modelled. Neither
  is overflow to infinity, which would let a finite damage exceed
  `double.MaxValue` in the plain variant.
- Enum defaults: card fields a unit test leaves unset are taken as None
  for the monster type.
- The plain variant's `catch` branch, which answers 500: no step of the
  loop as modelled can fail, so the branch is unreachable in the model.
- `CreateJSONResponse` needs a JSON serialiser and is not part of this
  model.
- WeatherBattle.UpdatePlayerStats: `Elo` is a 32-bit `int` in the
  source, so adding 3 or subtracting 5 wraps around at its bounds. The
  model's Elo is an unbounded integer and never wraps.
- Responses.CreateResponse: Content-Length counts the characters of the
  body. .NET counts UTF-16 code units, so the two differ for characters
  outside the Basic Multilingual Plane.
- Responses.ParseCreateResponse: requires a content type without a
  carriage return. Only with such a type can the layout be read back
  unambiguously. Every content type the server uses qualifies.
- User fields other than id, name and Elo (password, coins, bio, image,
  stored deck) play no part in the battle and are left out.

=== FILE: cards.dfy ===
/** Cards and the classification of a card from its name. A card's element,
    kind and monster type are all derived from substrings of its name when a
    package is created; the battle rules only ever look at those three
    derived fields and at the damage. */
module Cards {
  import Text

  datatype ElementType = Water | Fire | Normal
  datatype CardType = Monster | Spell
  datatype MonsterType = None | Goblin | Dragon | Wizard | Ork | Knight | Kraken | Elf

  /** An immutable card value; `damage` is a non-negative amount in the
      source, but nothing in the battle rules depends on that. */
  datatype Card = Card(
    id: string,
    name: string,
    damage: real,
    monsterType: MonsterType,
    cardType: CardType,
    elementType: ElementType)

  /** The monster keywords in the order their presence is tested. */
  const MonsterKeywords: seq<(string, MonsterType)> := [
    ("Goblin", Goblin), ("Dragon", Dragon), ("Wizard", Wizard), ("Ork", Ork),
    ("Knight", Knight), ("Kraken", Kraken), ("Elf", Elf)]

  lemma KeywordTable()
    ensures |MonsterKeywords| == 7
    ensures MonsterKeywords[0] == ("Goblin", Goblin) && MonsterKeywords[1] == ("Dragon", Dragon)
    ensures MonsterKeywords[2] == ("Wizard", Wizard) && MonsterKeywords[3] == ("Ork", Ork)
    ensures MonsterKeywords[4] == ("Knight", Knight) && MonsterKeywords[5] == ("Kraken", Kraken)
    ensures MonsterKeywords[6] == ("Elf", Elf)
  {
  }

  /** Keyword `k` is the first keyword of the priority list found in `name`. */
  predicate FirstKeyword(name: string, k: int) {
    && 0 <= k < |MonsterKeywords|
    && Text.Contains(name, MonsterKeywords[k].0)
    && forall j | 0 <= j < k :: !Text.Contains(name, MonsterKeywords[j].0)
  }

  /** The monster type named by the first keyword found in the name, or
      `None` when the name holds no keyword. */
  function DetermineMonsterType(name: string): (m: MonsterType)
    ensures m == None <==> forall k | 0 <= k < |MonsterKeywords| :: !Text.Contains(name, MonsterKeywords[k].0)
    ensures forall k | FirstKeyword(name, k) :: m == MonsterKeywords[k].1
  {
    KeywordTable();
    if Text.Contains(name, "Goblin") then Goblin
    else if Text.Contains(name, "Dragon") then Dragon
    else if Text.Contains(name, "Wizard") then Wizard
    else if Text.Contains(name, "Ork") then Ork
    else if Text.Contains(name, "Knight") then Knight
    else if Text.Contains(name, "Kraken") then Kraken
    else if Text.Contains(name, "Elf") then Elf
    else None
  }

  /** A card is a spell exactly when its name mentions "Spell". */
  function DetermineCardType(name: string): (t: CardType)
    ensures t == Spell <==> exists i :: Text.OccursAt(name, "Spell", i)
    ensures t == Monster <==> forall i :: !Text.OccursAt(name, "Spell", i)
  {
    if Text.Contains(name, "Spell") then Spell else Monster
  }

  /** "Water" wins over "Fire"; a name with neither is Normal. */
  function DetermineElementType(name: string): (e: ElementType)
    ensures e == Water <==> Text.Contains(name, "Water")
    ensures e == Fire <==> Text.Contains(name, "Fire") && !Text.Contains(name, "Water")
    ensures e == Normal <==> !Text.Contains(name, "Fire") && !Text.Contains(name, "Water")
  {
    if Text.Contains(name, "Water") then Water
    else if Text.Contains(name, "Fire") then Fire
    else Normal
  }

  /** Text added around a name never hides a keyword: a spell stays a
      spell, a Water card stays Water, and a monster type stays some
      monster type (not necessarily the same one). */
  lemma ClassificationSurvivesAffixes(prefix: string, name: string, suffix: string)
    ensures DetermineCardType(name) == Spell ==> DetermineCardType(prefix + name + suffix) == Spell
    ensures DetermineElementType(name) == Water ==> DetermineElementType(prefix + name + suffix) == Water
    ensures DetermineMonsterType(name) != None ==> DetermineMonsterType(prefix + name + suffix) != None
  {
    if DetermineCardType(name) == Spell {
      Text.ContainsInfix(prefix, name, suffix, "Spell");
    }
    if DetermineElementType(name) == Water {
      Text.ContainsInfix(prefix, name, suffix, "Water");
    }
    if DetermineMonsterType(name) != None {
      var k :| 0 <= k < |MonsterKeywords| && Text.Contains(name, MonsterKeywords[k].0);
      Text.ContainsInfix(prefix, name, suffix, MonsterKeywords[k].0);
    }
  }

  /** The elemental cycle: Water beats Fire, Fire beats Normal, Normal beats
      Water. */
  predicate Beats(attacker: ElementType, defender: ElementType) {
    match (attacker, defender)
    case (Water, Fire) => true
    case (Fire, Normal) => true
    case (Normal, Water) => true
    case _ => false
  }

  /** The elemental damage factor of the rule table: double against the
      element one beats, half against the element that beats one's own,
      unchanged otherwise. */
  function CycleFactor(attacker: ElementType, defender: ElementType): real {
    if Beats(attacker, defender) then 2.0
    else if Beats(defender, attacker) then 0.5
    else 1.0
  }

  /** Of two elements, exactly one beats the other unless they are equal. */
  lemma BeatsIsATournament(a: ElementType, b: ElementType)
    ensures a == b ==> !Beats(a, b)
    ensures a != b ==> (Beats(a, b) <==> !Beats(b, a))
    ensures CycleFactor(a, b) == 2.0 <==> CycleFactor(b, a) == 0.5
    ensures CycleFactor(a, b) == 1.0 <==> a == b
  {
  }
}

=== FILE: decks.dfy ===
/** What both battle variants share: decks as sequences of cards, the random
    choice of a card, and the capture of a beaten card by the round winner. */
module Decks {
  import opened Cards

  type Deck = seq<Card>

  /** The final verdict of a battle. */
  datatype Outcome = Player1Wins | Player2Wins | Draw

  /** The random card indices drawn in each round, by round number. The
      source asks `Random.Next(count)` for an index below the deck size; an
      oracle value `k` stands for index `k % count`, so every index the
      source can draw is covered. */
  datatype Picks = Picks(first: nat -> nat, second: nat -> nat)

  /** The card at the drawn index; drawing does not remove it. */
  function Pick(d: Deck, k: nat): (c: Card)
    requires |d| > 0
    ensures c in d
  {
    d[k % |d|]
  }

  /** Every card of a deck can be drawn. */
  lemma EveryCardCanBePicked(d: Deck, i: nat)
    requires i < |d|
    ensures Pick(d, i) == d[i]
  {
  }

  /** `List.IndexOf` for a card known to be present. */
  function IndexOf(d: Deck, c: Card): (i: nat)
    requires c in d
    ensures i < |d| && d[i] == c && c !in d[..i]
  {
    if d[0] == c then 0
    else
      var i := IndexOf(d[1..], c) + 1;
      assert d[..i] == [d[0]] + d[1..][..i - 1];
      i
  }

  /** `List.Remove`: drops the first card equal to `c`, and leaves a deck
      without `c` as it is. */
  function RemoveFirst(d: Deck, c: Card): (r: Deck)
    ensures c in d ==> r == d[..IndexOf(d, c)] + d[IndexOf(d, c) + 1..]
    ensures c in d ==> multiset(r) == multiset(d) - multiset{c}
    ensures c !in d ==> r == d
  {
    if c in d then
      var i := IndexOf(d, c);
      DropOneMultiset(d, i);
      d[..i] + d[i + 1..]
    else
      d
  }

  lemma DropOneMultiset(d: Deck, i: nat)
    requires i < |d|
    ensures multiset(d[..i] + d[i + 1..]) == multiset(d) - multiset{d[i]}
  {
    assert d == d[..i] + [d[i]] + d[i + 1..];
  }

  /** The winner of a round takes the loser's card: it is appended to the
      winner's deck and its first copy is removed from the loser's. */
  function Capture(winner: Deck, loser: Deck, c: Card): (r: (Deck, Deck))
    requires c in loser
    ensures multiset(r.0) == multiset(winner) + multiset{c}
    ensures multiset(r.1) == multiset(loser) - multiset{c}
    ensures multiset(r.0) + multiset(r.1) == multiset(winner) + multiset(loser)
    ensures |r.0| == |winner| + 1 && |r.1| == |loser| - 1
  {
    var r := (winner + [c], RemoveFirst(loser, c));
    assert |multiset(r.1)| == |multiset(loser)| - 1;
    r
  }
}

=== FILE: matchmaking.dfy ===
/** Joining a battle: a player brings a four-card deck and waits until a
    second player arrives; the two oldest waiting players then battle, their
    ratings are written back, and the battle log is the reply. Requests are
    modelled one at a time, each with the queue as it stands. */
module Matchmaking {
  import opened Decks
  import opened WeatherBattle
  import Seqs
  import Text
  import opened Wrappers
  import Responses

  const DeckSize: nat := 4

  /** A waiting player with the deck it brought. */
  datatype Entry = Entry(user: User, deck: Deck)

  /** How the runtime prints the values the log keeps unprinted. */
  datatype Formatter = Formatter(showWeather: Weather -> string, showDamage: real -> string)

  function Render(e: LogEntry, f: Formatter): string {
    match e
    case Line(text) => text
    case WeatherLine(true, w) => "Initial Weather: " + f.showWeather(w)
    case WeatherLine(false, w) => "Weather changed to: " + f.showWeather(w)
    case DamageLine(d1, d2) => "Damage: " + f.showDamage(d1) + " vs " + f.showDamage(d2)
  }

  function RenderLog(log: seq<LogEntry>, f: Formatter): (lines: seq<string>)
    ensures |lines| == |log|
    ensures forall k | 0 <= k < |log| :: lines[k] == Render(log[k], f)
  {
    seq(|log|, k requires 0 <= k < |log| => Render(log[k], f))
  }

  /** What a join request answers: a refusal, a request to wait, or the
      log of the battle it completed. */
  datatype Reply = InvalidDeck | Waiting | BattleLog(log: seq<LogEntry>)

  /** The HTTP response sent for a reply: 400 for a refused deck, and 200
      with the waiting message or the rendered log, one line per entry. */
  function Respond(reply: Reply, f: Formatter): (r: string)
    ensures Seqs.StartsWith(r, Responses.StatusLine + Text.IntToString(if reply == InvalidDeck then 400 else 200)
                               + Responses.TypeLine)
  {
    match reply
    case InvalidDeck => Responses.CreatePlainTextResponse(400, "Invalid deck size")
    case Waiting => Responses.CreatePlainTextResponse(200, "Waiting for opponent")
    case BattleLog(log) => Responses.CreatePlainTextResponse(200, Text.Join("\n", RenderLog(log, f)))
  }

  /** Every reply is a well-formed plain-text response that reads back with
      status 400 exactly for a refused deck and 200 otherwise. */
  lemma RespondReadsBack(reply: Reply, f: Formatter)
    ensures var fields := Responses.ParseResponse(Respond(reply, f));
      && fields.Some?
      && fields.value.contentType == "text/plain"
      && (fields.value.statusCode == 400 <==> reply == InvalidDeck)
      && (fields.value.statusCode == 200 <==> reply != InvalidDeck)
      && (reply == InvalidDeck ==> fields.value.data == "Invalid deck size")
      && (reply == Waiting ==> fields.value.data == "Waiting for opponent")
      && (reply.BattleLog? ==> fields.value.data == Text.Join("\n", RenderLog(reply.log, f)))
  {
    match reply
    case InvalidDeck => Responses.PlainTextRoundTrip(400, "Invalid deck size");
    case Waiting => Responses.PlainTextRoundTrip(200, "Waiting for opponent");
    case BattleLog(log) => Responses.PlainTextRoundTrip(200, Text.Join("\n", RenderLog(log, f)));
  }

  /** A client that splits the body of a battle reply at its newlines gets
      back one line per log entry, in order, provided no rendered entry
      holds a newline itself. */
  lemma LogReadsBack(log: seq<LogEntry>, f: Formatter)
    requires |log| > 0
    requires forall k | 0 <= k < |log| :: '\n' !in Render(log[k], f)
    ensures var fields := Responses.ParseResponse(Respond(BattleLog(log), f));
      fields.Some? && Text.Split(fields.value.data, '\n') == RenderLog(log, f)
  {
    RespondReadsBack(BattleLog(log), f);
    Text.SplitJoin(RenderLog(log, f), '\n');
  }

  /** The outcome of one join request: the queue afterwards, the reply, the
      battle played (if one was) and the users written to the rating store. */
  datatype JoinResult = JoinResult(queue: seq<Entry>, reply: Reply, battle: Option<Battle>, writes: seq<User>)

  /** The battle between the two oldest waiting players, each with the
      deck it brought. */
  function PairBattle(q: seq<Entry>, chance: Chance): (b: Battle)
    requires |q| >= 2
    ensures b.player1.user == q[0].user && b.player2.user == q[1].user
    ensures multiset(b.player1.cards) + multiset(b.player2.cards) == multiset(q[0].deck) + multiset(q[1].deck)
    ensures |b.player1.cards| + |b.player2.cards| == |q[0].deck| + |q[1].deck|
  {
    StartBattle(Player(q[0].user, q[0].deck), Player(q[1].user, q[1].deck), chance)
  }

  /** The two oldest waiting players battle: they leave the queue, the
      battle and its log are returned, and both users are written. */
  function PairUp(q: seq<Entry>, chance: Chance): (r: JoinResult)
    requires |q| >= 2
    ensures r.queue == q[2..]
    ensures r.battle == Some(PairBattle(q, chance)) && r.reply == BattleLog(r.battle.value.log)
    ensures |r.writes| == 2 && r.writes[0].id == q[0].user.id && r.writes[1].id == q[1].user.id
    ensures r.writes == UpdatePlayerStats(r.battle.value.player1, r.battle.value.player2)
  {
    var b := PairBattle(q, chance);
    JoinResult(q[2..], BattleLog(b.log), Some(b), UpdatePlayerStats(b.player1, b.player2))
  }

  /** One join request served on its own: a deck of the wrong size is
      refused; otherwise the player queues, and once two players wait the
      two oldest battle, their ratings are written and the log is returned. */
  function BattleAsync(queue: seq<Entry>, user: User, deck: Deck, chance: Chance): (r: JoinResult)
    ensures |deck| != DeckSize ==> r == JoinResult(queue, InvalidDeck, None, [])
    ensures |deck| == DeckSize && |queue| == 0 ==> r == JoinResult([Entry(user, deck)], Waiting, None, [])
    ensures |deck| == DeckSize && |queue| > 0 ==>
              && r.queue == (queue + [Entry(user, deck)])[2..]
              && r.battle == Some(PairBattle(queue + [Entry(user, deck)], chance))
              && r.reply == BattleLog(r.battle.value.log)
              && r.battle.value.player1.user == queue[0].user
              && r.battle.value.player2.user == (queue + [Entry(user, deck)])[1].user
              && |r.writes| == 2 && r.writes[0].id == queue[0].user.id
              && r.writes[1].id == (queue + [Entry(user, deck)])[1].user.id
              && r.writes == UpdatePlayerStats(r.battle.value.player1, r.battle.value.player2)
  {
    if |deck| != DeckSize then
      JoinResult(queue, InvalidDeck, None, [])
    else
      var q := queue + [Entry(user, deck)];
      if |q| >= 2 then PairUp(q, chance)
      else JoinResult(q, Waiting, None, [])
  }

  /** Served one at a time, join requests never leave more than one player
      waiting, and a battle started from two valid decks conserves their
      eight cards. */
  lemma AtMostOneWaits(queue: seq<Entry>, user: User, deck: Deck, chance: Chance)
    requires |queue| <= 1
    requires forall k | 0 <= k < |queue| :: |queue[k].deck| == DeckSize
    ensures var r := BattleAsync(queue, user, deck, chance);
      && |r.queue| <= 1
      && (forall k | 0 <= k < |r.queue| :: |r.queue[k].deck| == DeckSize)
      && (r.battle.Some? ==> |r.battle.value.player1.cards| + |r.battle.value.player2.cards| == 2 * DeckSize)
  {
  }
}

=== FILE: plain_battle.dfy ===
/** The battle variant without weather. A counter match-up gives the
    attacker the largest double value, so it wins the round unless the
    defender counters it back; the elemental cycle applies whenever a
    spell takes part. At most 100 rounds are played; the player holding
    more cards at the end wins. */
module PlainBattle {
  import opened Cards
  import opened Decks
  import Responses

  const MaxRounds: nat := 100

  /** A damage value: an amount, or `double.MaxValue`, which only a counter
      match-up produces. */
  datatype Damage = Finite(amount: real) | Overwhelming

  /** `>` on damage values: the maximal value exceeds every amount and is
      equal to itself. */
  predicate Exceeds(a: Damage, b: Damage) {
    match (a, b)
    case (Overwhelming, Finite(_)) => true
    case (Finite(x), Finite(y)) => x > y
    case _ => false
  }

  /** `Exceeds` is a strict order. */
  lemma ExceedsIsStrictOrder(a: Damage, b: Damage, c: Damage)
    ensures !Exceeds(a, a)
    ensures Exceeds(a, b) ==> !Exceeds(b, a)
    ensures Exceeds(a, b) && Exceeds(b, c) ==> Exceeds(a, c)
  {
  }

  /** Whether the attacker's type counters the defender. The check for an
      Elf attacking a Dragon returns false like the fall-through, so it has
      no effect. */
  function SpecialtyCheck(attacker: Card, defender: Card): (b: bool)
    ensures b <==> match attacker.monsterType
                   case Goblin => defender.monsterType == Dragon
                   case Wizard => defender.monsterType == Ork
                   case Knight => defender.elementType == Water
                   case Kraken => defender.cardType == Spell
                   case _ => false
  {
    if attacker.monsterType == Goblin && defender.monsterType == Dragon then true
    else if attacker.monsterType == Wizard && defender.monsterType == Ork then true
    else if attacker.monsterType == Knight && defender.elementType == Water then true
    else if attacker.monsterType == Kraken && defender.cardType == Spell then true
    else if attacker.monsterType == Elf && defender.monsterType == Dragon then false
    else false
  }

  /** The element factor as the early-returning chain computes it; it is
      the elemental cycle. */
  function GetElementMultiplier(attacker: ElementType, defender: ElementType): (m: real)
    ensures m == CycleFactor(attacker, defender)
    ensures m == 2.0 <==> Beats(attacker, defender)
    ensures m == 0.5 <==> Beats(defender, attacker)
  {
    if attacker == Water && defender == Fire then 2.0
    else if attacker == Fire && defender == Normal then 2.0
    else if attacker == Normal && defender == Water then 2.0
    else if defender == Water && attacker == Fire then 0.5
    else if defender == Fire && attacker == Normal then 0.5
    else if defender == Normal && attacker == Water then 0.5
    else 1.0
  }

  /** Damage dealt by `attacker` to `defender`: maximal for a counter, the
      card's damage times the element factor when a spell takes part, and
      the bare damage between two monsters. */
  function CalculateDamage(attacker: Card, defender: Card): (r: Damage)
    ensures r == Overwhelming <==> SpecialtyCheck(attacker, defender)
    ensures !SpecialtyCheck(attacker, defender) && (attacker.cardType == Spell || defender.cardType == Spell) ==>
              r == Finite(attacker.damage * CycleFactor(attacker.elementType, defender.elementType))
    ensures !SpecialtyCheck(attacker, defender) && attacker.cardType == Monster && defender.cardType == Monster ==>
              r == Finite(attacker.damage)
  {
    if SpecialtyCheck(attacker, defender) then Overwhelming
    else if attacker.cardType == Spell || defender.cardType == Spell then
      Finite(attacker.damage * GetElementMultiplier(attacker.elementType, defender.elementType))
    else
      Finite(attacker.damage)
  }

  /** A card that counters its opponent wins the round unless the opponent
      counters it back, in which case neither wins. */
  lemma CounterWinsRound(c1: Card, c2: Card)
    requires SpecialtyCheck(c1, c2)
    ensures !SpecialtyCheck(c2, c1) ==> Exceeds(CalculateDamage(c1, c2), CalculateDamage(c2, c1))
    ensures SpecialtyCheck(c2, c1) ==>
              !Exceeds(CalculateDamage(c1, c2), CalculateDamage(c2, c1)) &&
              !Exceeds(CalculateDamage(c2, c1), CalculateDamage(c1, c2))
  {
  }

  /** A Knight counters every Water card, spell or monster, and an Elf
      counters nothing, Dragons included. */
  lemma KnightAndElfCounters(attacker: Card, defender: Card)
    ensures attacker.monsterType == Knight && defender.elementType == Water ==> SpecialtyCheck(attacker, defender)
    ensures attacker.monsterType == Elf ==> !SpecialtyCheck(attacker, defender)
  {
  }

  /** One round with the two drawn cards: the higher damage captures the
      other card; with neither damage higher both decks stay as they are. */
  function PlayRound(deck1: Deck, deck2: Deck, card1: Card, card2: Card): (r: (Deck, Deck))
    requires card1 in deck1 && card2 in deck2
    ensures multiset(r.0) + multiset(r.1) == multiset(deck1) + multiset(deck2)
    ensures |r.0| + |r.1| == |deck1| + |deck2|
    ensures Exceeds(CalculateDamage(card1, card2), CalculateDamage(card2, card1)) ==>
              multiset(r.0) == multiset(deck1) + multiset{card2} && multiset(r.1) == multiset(deck2) - multiset{card2}
    ensures Exceeds(CalculateDamage(card2, card1), CalculateDamage(card1, card2)) ==>
              multiset(r.1) == multiset(deck2) + multiset{card1} && multiset(r.0) == multiset(deck1) - multiset{card1}
    ensures !Exceeds(CalculateDamage(card1, card2), CalculateDamage(card2, card1)) &&
            !Exceeds(CalculateDamage(card2, card1), CalculateDamage(card1, card2)) ==>
              r == (deck1, deck2)
  {
    var damage1 := CalculateDamage(card1, card2);
    var damage2 := CalculateDamage(card2, card1);
    if Exceeds(damage1, damage2) then
      Capture(deck1, deck2, card2)
    else if Exceeds(damage2, damage1) then
      var (won, lost) := Capture(deck2, deck1, card1);
      (lost, won)
    else
      (deck1, deck2)
  }

  /** The final decks and the number of rounds played, from round `round`
      on: a round is played while both decks hold cards and fewer than 100
      rounds have been played. */
  function Rounds(deck1: Deck, deck2: Deck, round: nat, picks: Picks): (r: (Deck, Deck, nat))
    requires round <= MaxRounds
    ensures multiset(r.0) + multiset(r.1) == multiset(deck1) + multiset(deck2)
    ensures round <= r.2 <= MaxRounds
    ensures r.2 < MaxRounds ==> |r.0| == 0 || |r.1| == 0
    ensures |deck1| == 0 || |deck2| == 0 ==> r == (deck1, deck2, round)
    decreases MaxRounds - round
  {
    if |deck1| > 0 && |deck2| > 0 && round < MaxRounds then
      var next := round + 1;
      var (d1, d2) := PlayRound(deck1, deck2, Pick(deck1, picks.first(next)), Pick(deck2, picks.second(next)));
      Rounds(d1, d2, next, picks)
    else
      (deck1, deck2, round)
  }

  /** More cards wins; equal counts draw. */
  function Verdict(count1: nat, count2: nat): (o: Outcome)
    ensures o == Player1Wins <==> count1 > count2
    ensures o == Player2Wins <==> count2 > count1
    ensures o == Draw <==> count1 == count2
  {
    if count1 > count2 then Player1Wins
    else if count2 > count1 then Player2Wins
    else Draw
  }

  /** The answer text, a different message for each outcome. */
  function VerdictMessage(o: Outcome): (m: string)
    ensures m == "Player 1 wins the battle" <==> o == Player1Wins
    ensures m == "Player 2 wins the battle" <==> o == Player2Wins
    ensures m == "It's a draw" <==> o == Draw
  {
    match o
    case Player1Wins => "Player 1 wins the battle"
    case Player2Wins => "Player 2 wins the battle"
    case Draw => "It's a draw"
  }

  /** Runs a battle between two decks and answers with the verdict. The
      decks come back as they stand at the end, as the caller's lists do. */
  method StartBattleAsync(deck1: Deck, deck2: Deck, picks: Picks)
    returns (response: string, final1: Deck, final2: Deck, rounds: nat)
    ensures (final1, final2, rounds) == Rounds(deck1, deck2, 0, picks)
    ensures multiset(final1) + multiset(final2) == multiset(deck1) + multiset(deck2)
    ensures rounds <= MaxRounds
    ensures rounds < MaxRounds ==> |final1| == 0 || |final2| == 0
    ensures response == Responses.CreatePlainTextResponse(200, VerdictMessage(Verdict(|final1|, |final2|)))
  {
    final1, final2 := deck1, deck2;
    rounds := 0;
    while |final1| > 0 && |final2| > 0 && rounds < MaxRounds
      invariant rounds <= MaxRounds
      invariant Rounds(final1, final2, rounds, picks) == Rounds(deck1, deck2, 0, picks)
      decreases MaxRounds - rounds
    {
      rounds := rounds + 1;
      var card1 := Pick(final1, picks.first(rounds));
      var card2 := Pick(final2, picks.second(rounds));
      var damage1 := CalculateDamage(card1, card2);
      var damage2 := CalculateDamage(card2, card1);
      if Exceeds(damage1, damage2) {
        final1 := final1 + [card2];
        final2 := RemoveFirst(final2, card2);
      } else if Exceeds(damage2, damage1) {
        final2 := final2 + [card1];
        final1 := RemoveFirst(final1, card1);
      }
    }
    var message := VerdictMessage(Verdict(|final1|, |final2|));
    response := Responses.CreatePlainTextResponse(200, message);
  }

  /** With cards on both sides a battle lasts at least one round, and a
      battle that ends before the cap has a winner holding every card. */
  lemma BattleEndsWithWinnerOrCap(deck1: Deck, deck2: Deck, picks: Picks)
    requires |deck1| > 0 && |deck2| > 0
    ensures var (f1, f2, n) := Rounds(deck1, deck2, 0, picks);
      && n >= 1
      && (n < MaxRounds ==> Verdict(|f1|, |f2|) != Draw)
      && (n < MaxRounds && Verdict(|f1|, |f2|) == Player1Wins ==> |f1| == |deck1| + |deck2|)
      && (n < MaxRounds && Verdict(|f1|, |f2|) == Player2Wins ==> |f2| == |deck1| + |deck2|)
  {
    var (f1, f2, n) := Rounds(deck1, deck2, 0, picks);
    assert |multiset(f1) + multiset(f2)| == |deck1| + |deck2|;
  }
}

=== FILE: responses.dfy ===
/** The plain-text HTTP response serialiser used by every controller.
    A response is a status line, a Content-Type header, a Content-Length
    header whose value is followed by one space, an empty line, and the
    body. `ParseResponse` reads the three fields back and is the partner
    that pins the layout down. */
module Responses {
  import opened Seqs
  import opened Text
  import opened Wrappers

  const StatusLine: string := "HTTP/1.1 "
  const TypeLine: string := "\r\nContent-Type: "
  const LengthLine: string := "\r\nContent-Length: "
  /** The space after the length value, then the empty line. */
  const HeaderEnd: string := " \r\n\r\n"

  /** The fields a response carries. */
  datatype Fields = Fields(statusCode: int, contentType: string, data: string)

  /** Serialises a response; the Content-Length value is the number of
      characters of `data`. */
  function CreateResponse(statusCode: int, data: string, contentType: string): (r: string)
    ensures StartsWith(r, StatusLine + IntToString(statusCode) + TypeLine)
    ensures EndsWith(r, HeaderEnd + data)
  {
    StartsWithPieces(StatusLine, IntToString(statusCode), TypeLine,
                     contentType + (LengthLine + (IntToString(|data|) + (HeaderEnd + data))));
    StatusLine + (IntToString(statusCode) +
    (TypeLine + (contentType +
    (LengthLine + (IntToString(|data|) +
    (HeaderEnd + data))))))
  }

  /** Serialises a response whose content type is `text/plain`. */
  function CreatePlainTextResponse(statusCode: int, data: string): (r: string)
    ensures StartsWith(r, StatusLine + IntToString(statusCode) + TypeLine)
    ensures EndsWith(r, HeaderEnd + data)
  {
    CreateResponse(statusCode, data, "text/plain")
  }

  /** A plain-text response reads back as its status code, the content
      type `text/plain` and its body. */
  lemma PlainTextRoundTrip(statusCode: int, data: string)
    ensures ParseResponse(CreatePlainTextResponse(statusCode, data)) == Some(Fields(statusCode, "text/plain", data))
  {
    ParseCreateResponse(statusCode, data, "text/plain");
  }

  /** Reads a response back into its fields: the status code, the content
      type (up to the first carriage return), and a body whose length must
      equal the Content-Length value. */
  function ParseResponse(r: string): Option<Fields> {
    if !StartsWith(r, StatusLine) then None
    else
      match SplitBefore(r[|StatusLine|..], '\r')
      case None => None
      case Some((code, rest)) =>
        match (ParseInt(code), ParseTypeSection(rest))
        case (Some(c), Some((contentType, data))) => Some(Fields(c, contentType, data))
        case _ => None
  }

  /** Reads the Content-Type header and what follows it. */
  function ParseTypeSection(s: string): Option<(string, string)> {
    if !StartsWith(s, TypeLine) then None
    else
      match SplitBefore(s[|TypeLine|..], '\r')
      case None => None
      case Some((contentType, rest)) =>
        match ParseLengthSection(rest)
        case Some(data) => Some((contentType, data))
        case None => None
  }

  /** Reads the Content-Length header, the blank line and a body of exactly
      the announced length. */
  function ParseLengthSection(s: string): Option<string> {
    if !StartsWith(s, LengthLine) then None
    else
      match SplitBefore(s[|LengthLine|..], ' ')
      case None => None
      case Some((length, rest)) =>
        if !StartsWith(rest, HeaderEnd) then None
        else
          var data := rest[|HeaderEnd|..];
          if ParseNat(length) == Some(|data|) then Some(data) else None
  }

  lemma IntToStringHasNoSpaceOrReturn(i: int)
    ensures '\r' !in IntToString(i) && ' ' !in IntToString(i)
  {
    var s := NatToString(if i < 0 then -i else i);
    assert forall k | 0 <= k < |s| :: s[k] != '\r' && s[k] != ' ';
  }

  lemma ParseLengthSectionOf(data: string)
    ensures ParseLengthSection(LengthLine + (IntToString(|data|) + (HeaderEnd + data))) == Some(data)
  {
    var length := IntToString(|data|);
    var rest := HeaderEnd + data;
    var s := LengthLine + (length + rest);
    assert s[..|LengthLine|] == LengthLine;
    assert s[|LengthLine|..] == length + rest;
    IntToStringHasNoSpaceOrReturn(|data|);
    assert rest[0] == HeaderEnd[0] == ' ';
    SplitBeforeJoin(length, rest, ' ');
    assert rest[..|HeaderEnd|] == HeaderEnd;
    assert rest[|HeaderEnd|..] == data;
    assert length == NatToString(|data|);
    ParseNatToString(|data|);
  }

  lemma ParseTypeSectionOf(contentType: string, lengthSection: string, data: string)
    requires '\r' !in contentType
    requires ParseLengthSection(lengthSection) == Some(data)
    ensures ParseTypeSection(TypeLine + (contentType + lengthSection)) == Some((contentType, data))
  {
    var s := TypeLine + (contentType + lengthSection);
    assert lengthSection[..|LengthLine|] == LengthLine;
    assert lengthSection[0] == LengthLine[0] == '\r';
    assert s[..|TypeLine|] == TypeLine;
    assert s[|TypeLine|..] == contentType + lengthSection;
    SplitBeforeJoin(contentType, lengthSection, '\r');
  }

  /** Any status code, any body and any content type without a carriage
      return survive a serialise-then-parse round trip. */
  lemma ParseCreateResponse(statusCode: int, data: string, contentType: string)
    requires '\r' !in contentType
    ensures ParseResponse(CreateResponse(statusCode, data, contentType))
            == Some(Fields(statusCode, contentType, data))
  {
    var code := IntToString(statusCode);
    var lengthSection := LengthLine + (IntToString(|data|) + (HeaderEnd + data));
    var rest := TypeLine + (contentType + lengthSection);
    var r := CreateResponse(statusCode, data, contentType);
    assert r == StatusLine + (code + rest);
    assert r[..|StatusLine|] == StatusLine;
    assert r[|StatusLine|..] == code + rest;
    assert rest[0] == TypeLine[0] == '\r';
    IntToStringHasNoSpaceOrReturn(statusCode);
    SplitBeforeJoin(code, rest, '\r');
    ParseLengthSectionOf(data);
    ParseTypeSectionOf(contentType, lengthSection, data);
    ParseIntToString(statusCode);
  }

  /** Whatever `ParseLengthSection` accepts is a length line written the
      way `CreateResponse` writes it. */
  lemma LengthSectionParsed(s: string, data: string)
    requires ParseLengthSection(s) == Some(data)
    ensures s == LengthLine + (IntToString(|data|) + (HeaderEnd + data))
  {
    var length := LengthSectionPieces(s, data);
    ParseNatCanonical(length, |data|);
  }

  /** The pieces `ParseLengthSection` cuts an accepted string into. */
  lemma LengthSectionPieces(s: string, data: string) returns (length: string)
    requires ParseLengthSection(s) == Some(data)
    ensures ParseNat(length) == Some(|data|)
    ensures s == LengthLine + (length + (HeaderEnd + data))
  {
    var tail := s[|LengthLine|..];
    var (digits, rest) := SplitBefore(tail, ' ').value;
    length := digits;
    StartsWithJoin(s, LengthLine);
    StartsWithJoin(rest, HeaderEnd);
  }

  /** Whatever `ParseTypeSection` accepts is a content type without a
      carriage return followed by a length section. */
  lemma TypeSectionParsed(s: string, contentType: string, data: string)
    requires ParseTypeSection(s) == Some((contentType, data))
    ensures '\r' !in contentType
    ensures s == TypeLine + (contentType + (LengthLine + (IntToString(|data|) + (HeaderEnd + data))))
  {
    var (t, rest) := SplitBefore(s[|TypeLine|..], '\r').value;
    StartsWithJoin(s, TypeLine);
    LengthSectionParsed(rest, data);
  }

  /** A string parses as a response exactly when `CreateResponse` writes
      it for those fields with a content type free of carriage returns:
      parsing accepts nothing the serialiser would not have produced. */
  lemma ParseResponseExactly(r: string, statusCode: int, data: string, contentType: string)
    ensures ParseResponse(r) == Some(Fields(statusCode, contentType, data))
            <==> '\r' !in contentType && r == CreateResponse(statusCode, data, contentType)
  {
    if '\r' !in contentType && r == CreateResponse(statusCode, data, contentType) {
      ParseCreateResponse(statusCode, data, contentType);
    }
    if ParseResponse(r) == Some(Fields(statusCode, contentType, data)) {
      var (code, rest) := SplitBefore(r[|StatusLine|..], '\r').value;
      StartsWithJoin(r, StatusLine);
      ParseIntExactly(code, statusCode);
      TypeSectionParsed(rest, contentType, data);
    }
  }

  /** The fixed strings the controller tests compare against. */
  lemma PlainTextOk()
    ensures CreatePlainTextResponse(201, "OK")
            == "HTTP/1.1 201\r\nContent-Type: text/plain\r\nContent-Length: 2 \r\n\r\nOK"
  {
    assert IntToString(201) == "201" by {
      assert NatToString(20) == "20" by { assert NatToString(2) == "2"; }
    }
    assert IntToString(2) == "2";
    LayoutOk();
  }

  lemma LayoutOk()
    ensures StatusLine + ("201" + (TypeLine + ("text/plain" + (LengthLine + ("2" + (HeaderEnd + "OK"))))))
            == "HTTP/1.1 201\r\nContent-Type: text/plain\r\nContent-Length: 2 \r\n\r\nOK"
  {
    var tail := LengthLine + ("2" + (HeaderEnd + "OK"));
    LayoutTail();
    LayoutHead(tail);
    assert "HTTP/1.1 201\r\nContent-Type: text/plain" + "\r\nContent-Length: 2 \r\n\r\nOK"
           == "HTTP/1.1 201\r\nContent-Type: text/plain\r\nContent-Length: 2 \r\n\r\nOK";
  }

  lemma LayoutHead(tail: string)
    ensures StatusLine + ("201" + (TypeLine + ("text/plain" + tail)))
            == "HTTP/1.1 201\r\nContent-Type: text/plain" + tail
  {
    LayoutStatus();
    var typed := StatusLine + "201" + TypeLine;
    assert typed + "text/plain" == "HTTP/1.1 201\r\nContent-Type: text/plain";
    assert StatusLine + ("201" + (TypeLine + ("text/plain" + tail))) == typed + "text/plain" + tail;
  }

  lemma LayoutStatus()
    ensures StatusLine + "201" + TypeLine == "HTTP/1.1 201\r\nContent-Type: "
  {
    assert StatusLine + "201" == "HTTP/1.1 201";
  }

  lemma LayoutTail()
    ensures LengthLine + ("2" + (HeaderEnd + "OK")) == "\r\nContent-Length: 2 \r\n\r\nOK"
  {
    assert HeaderEnd + "OK" == " \r\n\r\nOK";
  }
}

=== FILE: seqs.dfy ===
/** Prefix and suffix facts about sequences of any element type, used on
    strings by the parsers and on battle logs and round records by the
    battle proofs. */
module Seqs {
  /** `p` is a prefix of `s`. */
  predicate StartsWith<T(==)>(s: seq<T>, p: seq<T>) {
    |p| <= |s| && s[..|p|] == p
  }

  /** A prefix of a prefix is a prefix. */
  lemma StartsWithTransitive<T>(a: seq<T>, b: seq<T>, c: seq<T>)
    requires StartsWith(a, b) && StartsWith(b, c)
    ensures StartsWith(a, c)
  {
    assert a[..|c|] == a[..|b|][..|c|];
  }

  /** A sequence agrees with its prefix at every position the prefix covers. */
  lemma StartsWithIndex<T>(s: seq<T>, p: seq<T>, k: nat)
    requires StartsWith(s, p) && k < |p|
    ensures s[k] == p[k]
  {
    assert s[k] == s[..|p|][k];
  }

  /** A sequence is its prefix followed by what comes after the prefix. */
  lemma StartsWithJoin<T>(s: seq<T>, p: seq<T>)
    requires StartsWith(s, p)
    ensures s == p + s[|p|..]
  {
    assert s == s[..|p|] + s[|p|..];
  }

  /** `p` is a suffix of `s`. */
  predicate EndsWith<T(==)>(s: seq<T>, p: seq<T>) {
    |p| <= |s| && s[|s| - |p|..] == p
  }

  /** Three pieces put in front of anything still begin it. */
  lemma StartsWithPieces<T>(a: seq<T>, b: seq<T>, c: seq<T>, rest: seq<T>)
    ensures StartsWith(a + (b + (c + rest)), a + b + c)
  {
    assert a + (b + (c + rest)) == (a + b + c) + rest;
    assert ((a + b + c) + rest)[..|a + b + c|] == a + b + c;
  }
}

=== FILE: text.dfy ===
/** Character-string helpers shared by the card classifiers and the HTTP
    response serialiser: ordinal substring search (as .NET's
    `String.Contains(string)`), decimal rendering of integers (as
    `int.ToString()` under the invariant culture), and the matching parsers
    that serve as their partners. */
module Text {
  import opened Wrappers
  import opened Seqs

  /** `p` occurs in `s` starting at position `i`. */
  ghost predicate OccursAt(s: string, p: string, i: int) {
    0 <= i && i + |p| <= |s| && s[i..i + |p|] == p
  }

  /** Ordinal substring test: true exactly when `p` occurs somewhere in `s`
      (so the empty string occurs in every string). */
  function Contains(s: string, p: string): (b: bool)
    ensures b <==> exists i :: OccursAt(s, p, i)
    decreases |s|
  {
    if StartsWith(s, p) then
      assert OccursAt(s, p, 0);
      true
    else if |s| == 0 then
      false
    else
      var b := Contains(s[1..], p);
      assert b ==> exists i :: OccursAt(s, p, i) by {
        if b {
          var j :| OccursAt(s[1..], p, j);
          assert s[j + 1..j + 1 + |p|] == s[1..][j..j + |p|];
          assert OccursAt(s, p, j + 1);
        }
      }
      assert (exists i :: OccursAt(s, p, i)) ==> b by {
        if i :| OccursAt(s, p, i) {
          assert i != 0;
          assert s[1..][i - 1..i - 1 + |p|] == s[i..i + |p|];
          assert OccursAt(s[1..], p, i - 1);
        }
      }
      b
  }

  /** A substring of a part is a substring of the whole. */
  lemma ContainsInfix(a: string, s: string, b: string, p: string)
    requires Contains(s, p)
    ensures Contains(a + s + b, p)
  {
    var i :| OccursAt(s, p, i);
    assert (a + s + b)[|a| + i..|a| + i + |p|] == s[i..i + |p|];
    assert OccursAt(a + s + b, p, |a| + i);
  }

  predicate IsDigit(c: char) {
    '0' <= c <= '9'
  }

  function DigitChar(d: nat): (c: char)
    requires d < 10
    ensures IsDigit(c) && c as int - '0' as int == d
  {
    ['0', '1', '2', '3', '4', '5', '6', '7', '8', '9'][d]
  }

  /** Decimal digits of `n`, most significant first, without leading zeros. */
  function NatToString(n: nat): (s: string)
    ensures |s| > 0 && forall k | 0 <= k < |s| :: IsDigit(s[k])
    ensures |s| > 1 ==> s[0] != '0'
  {
    if n < 10 then [DigitChar(n)] else NatToString(n / 10) + [DigitChar(n % 10)]
  }

  /** `int.ToString()`: a minus sign before the digits of a negative value. */
  function IntToString(i: int): (s: string)
    ensures i >= 0 ==> s == NatToString(i)
    ensures i < 0 ==> s == "-" + NatToString(-i)
  {
    if i < 0 then "-" + NatToString(-i) else NatToString(i)
  }

  /** Value of a string of decimal digits. */
  function DigitsValue(s: string): nat
    requires forall k | 0 <= k < |s| :: IsDigit(s[k])
  {
    if |s| == 0 then 0
    else DigitsValue(s[..|s| - 1]) * 10 + DigitValue(s[|s| - 1])
  }

  function DigitValue(c: char): (d: nat)
    requires IsDigit(c)
    ensures d < 10 && DigitChar(d) == c
  {
    c as int - '0' as int
  }

  /** Parses a non-empty run of decimal digits without a leading zero,
      the only form `NatToString` writes. */
  function ParseNat(s: string): Option<nat> {
    if |s| > 0 && (|s| == 1 || s[0] != '0') && forall k | 0 <= k < |s| :: IsDigit(s[k])
    then Some(DigitsValue(s))
    else None
  }

  /** Parses what `IntToString` produces: the digits of `ParseNat`, with a
      leading minus only before a positive value. */
  function ParseInt(s: string): Option<int> {
    if |s| > 0 && s[0] == '-' then
      match ParseNat(s[1..])
      case Some(n) => if n > 0 then Some(-(n as int)) else None
      case None => None
    else
      match ParseNat(s)
      case Some(n) => Some(n)
      case None => None
  }

  lemma {:induction false} ParseNatToString(n: nat)
    ensures ParseNat(NatToString(n)) == Some(n)
  {
    var s := NatToString(n);
    if n >= 10 {
      ParseNatToString(n / 10);
      assert s[..|s| - 1] == NatToString(n / 10);
      assert DigitValue(s[|s| - 1]) == n % 10;
    } else {
      assert s == [DigitChar(n)];
      assert DigitsValue(s[..0]) == 0;
      assert DigitsValue(s) == DigitValue(s[0]) == n;
    }
  }

  /** `IntToString` is inverted by `ParseInt` for every integer. */
  lemma ParseIntToString(i: int)
    ensures ParseInt(IntToString(i)) == Some(i)
  {
    if i < 0 {
      ParseNegative(-i);
    } else {
      ParseNonNegative(i);
    }
  }

  /** Digits alone read back as the value they write. */
  lemma ParseNonNegative(n: nat)
    ensures ParseInt(IntToString(n)) == Some(n as int)
  {
    var s := NatToString(n);
    ParseNatToString(n);
    assert IsDigit(s[0]);
    assert ParseInt(s) == Some(n as int);
  }

  /** A minus sign before the digits of a positive value reads back as
      its negation. */
  lemma ParseNegative(n: nat)
    requires n > 0
    ensures ParseInt(IntToString(-(n as int))) == Some(-(n as int))
  {
    var s := "-" + NatToString(n);
    ParseNatToString(n);
    assert s[1..] == NatToString(n);
    assert ParseInt(s) == Some(-(n as int));
  }

  /** The only string `ParseNat` reads as `n` is the one `NatToString`
      writes for it. */
  lemma {:induction false} ParseNatCanonical(s: string, n: nat)
    requires ParseNat(s) == Some(n)
    ensures s == NatToString(n)
    decreases |s|
  {
    if |s| == 1 {
      assert DigitsValue(s[..0]) == 0;
      assert n == DigitValue(s[0]);
    } else {
      var front := s[..|s| - 1];
      assert front[0] == s[0];
      assert forall k | 0 <= k < |front| :: IsDigit(front[k]) by {
        forall k | 0 <= k < |front| ensures IsDigit(front[k]) { assert front[k] == s[k]; }
      }
      var m := DigitsValue(front);
      ParseNatCanonical(front, m);
      assert m != 0;
      var d := DigitValue(s[|s| - 1]);
      assert n == m * 10 + d && n / 10 == m && n % 10 == d;
      assert s == front + [s[|s| - 1]];
    }
  }

  /** `ParseInt` reads `s` as `i` exactly when `s` is what `IntToString`
      writes for `i`: no leading zeros, no "-0", no plus sign. */
  lemma ParseIntExactly(s: string, i: int)
    ensures ParseInt(s) == Some(i) <==> s == IntToString(i)
  {
    if s == IntToString(i) {
      ParseIntToString(i);
    }
    if ParseInt(s) == Some(i) {
      if |s| > 0 && s[0] == '-' {
        ParseNatCanonical(s[1..], -i);
        assert s == "-" + s[1..];
      } else {
        ParseNatCanonical(s, i);
      }
    }
  }

  /** Splits `s` just before the first occurrence of `c`. */
  function SplitBefore(s: string, c: char): (r: Option<(string, string)>)
    ensures r.None? <==> c !in s
    ensures r.Some? ==> c !in r.value.0 && s == r.value.0 + r.value.1
                        && |r.value.1| > 0 && r.value.1[0] == c
  {
    if |s| == 0 then None
    else if s[0] == c then Some(([], s))
    else
      match SplitBefore(s[1..], c)
      case None => None
      case Some((before, after)) => Some(([s[0]] + before, after))
  }

  lemma {:induction false} SplitBeforeJoin(a: string, b: string, c: char)
    requires c !in a && |b| > 0 && b[0] == c
    ensures SplitBefore(a + b, c) == Some((a, b))
  {
    if |a| > 0 {
      assert (a + b)[1..] == a[1..] + b;
      SplitBeforeJoin(a[1..], b, c);
      assert [a[0]] + a[1..] == a;
    } else {
      assert a + b == b;
    }
  }

  /** `string.Join(sep, lines)`. */
  function Join(sep: string, lines: seq<string>): (s: string)
    ensures |lines| == 1 ==> s == lines[0]
    ensures |lines| == 0 ==> s == ""
  {
    if |lines| == 0 then ""
    else if |lines| == 1 then lines[0]
    else lines[0] + sep + Join(sep, lines[1..])
  }

  /** `string.Split(c)`: the pieces between the occurrences of `c`, so one
      more piece than there are separators. */
  function Split(s: string, c: char): (pieces: seq<string>)
    ensures |pieces| > 0
    ensures forall k | 0 <= k < |pieces| :: c !in pieces[k]
    decreases |s|
  {
    match SplitBefore(s, c)
    case None => [s]
    case Some((before, after)) => [before] + Split(after[1..], c)
  }

  /** Joining lines that do not contain the separator and splitting again
      gives the lines back. */
  lemma {:induction false} SplitJoin(lines: seq<string>, c: char)
    requires |lines| > 0
    requires forall k | 0 <= k < |lines| :: c !in lines[k]
    ensures Split(Join([c], lines), c) == lines
  {
    if |lines| > 1 {
      var rest := Join([c], lines[1..]);
      assert Join([c], lines) == lines[0] + ([c] + rest);
      SplitFirst(lines[0], rest, c);
      SplitJoin(lines[1..], c);
      assert lines == [lines[0]] + lines[1..];
    }
  }

  /** The first piece ends at the first separator. */
  lemma SplitFirst(first: string, rest: string, c: char)
    requires c !in first
    ensures Split(first + ([c] + rest), c) == [first] + Split(rest, c)
  {
    SplitBeforeJoin(first, [c] + rest, c);
    assert ([c] + rest)[1..] == rest;
  }

  /** Splitting and joining again gives the string back. */
  lemma {:induction false} JoinSplit(s: string, c: char)
    ensures Join([c], Split(s, c)) == s
    decreases |s|
  {
    match SplitBefore(s, c)
    case None =>
    case Some((before, after)) =>
      JoinSplit(after[1..], c);
      var tail := Split(after[1..], c);
      assert Split(s, c) == [before] + tail;
      assert ([before] + tail)[1..] == tail;
      assert after == [c] + after[1..];
  }
}

=== FILE: variants.dfy ===
/** How the two battle variants relate: they share the elemental cycle but
    resolve a counter match-up in opposite directions. */
module Variants {
  import opened Cards
  import WeatherBattle
  import PlainBattle

  /** Whenever a spell takes part, both variants scale damage by the same
      element factor. */
  lemma ElementFactorsAgree(attacker: Card, defender: Card)
    requires attacker.cardType == Spell || defender.cardType == Spell
    ensures WeatherBattle.ElementMultiplier(attacker, defender)
            == PlainBattle.GetElementMultiplier(attacker.elementType, defender.elementType)
  {
  }

  /** A Goblin attacking a Dragon deals nothing in the weather variant and
      the maximal damage in the plain one: the weather variant lets the
      Dragon win that round, the plain one the Goblin. */
  lemma GoblinAgainstDragon(goblin: Card, dragon: Card, w: WeatherBattle.Weather)
    requires goblin.monsterType == Goblin && dragon.monsterType == Dragon
    requires dragon.damage > 0.0
    ensures WeatherBattle.CalculateDamage(goblin, dragon, w) == 0.0
    ensures WeatherBattle.CalculateDamage(goblin, dragon, w) < WeatherBattle.CalculateDamage(dragon, goblin, w)
    ensures PlainBattle.CalculateDamage(goblin, dragon) == PlainBattle.Overwhelming
    ensures PlainBattle.Exceeds(PlainBattle.CalculateDamage(goblin, dragon), PlainBattle.CalculateDamage(dragon, goblin))
  {
    WeatherBattle.CounteredCardLosesRound(goblin, dragon, w);
  }
}

=== FILE: weather_battle.dfy ===
/** The battle variant with weather (the controller the unit tests
    exercise). Counter match-ups make the attacker deal nothing, the weather
    doubles the damage of the element it favours, and the elemental cycle
    applies unless two monsters meet. Rounds 1 to 99 are played; the card
    that loses a round is captured by the other player; the battle is won
    by the player whose opponent has no card left, and drawn otherwise. */
module WeatherBattle {
  import opened Cards
  import opened Decks
  import Seqs
  import Text
  import Wrappers

  /** Sunny, Hot and Rain favour Normal, Fire and Water; `Other` stands for
      any further value of the weather enumeration. */
  datatype Weather = Sunny | Hot | Rain | Other

  predicate Favours(w: Weather, e: ElementType) {
    match w
    case Sunny => e == Normal
    case Hot => e == Fire
    case Rain => e == Water
    case Other => false
  }

  /** The five match-ups in which the attacker deals no damage. */
  predicate Countered(attacker: Card, defender: Card) {
    || (attacker.monsterType == Goblin && defender.monsterType == Dragon)
    || (attacker.monsterType == Ork && defender.monsterType == Wizard)
    || (attacker.monsterType == Knight && defender.cardType == Spell && defender.elementType == Water)
    || (attacker.cardType == Spell && defender.monsterType == Kraken)
    || (attacker.monsterType == Dragon && defender.monsterType == Elf && defender.elementType == Fire)
  }

  /** The attacker's weather factor, as the `switch` on the weather sets it. */
  function WeatherMultiplier(w: Weather, attacker: ElementType): (m: real)
    ensures m == (if Favours(w, attacker) then 2.0 else 1.0)
  {
    match w
    case Sunny => if attacker == Normal then 2.0 else 1.0
    case Hot => if attacker == Fire then 2.0 else 1.0
    case Rain => if attacker == Water then 2.0 else 1.0
    case Other => 1.0
  }

  /** The element factor as the source computes it: six assignments in
      sequence, then a reset to 1 when both cards are monsters. It agrees
      with the elemental cycle whenever a spell takes part. */
  function ElementMultiplier(attacker: Card, defender: Card): (m: real)
    ensures attacker.cardType == Monster && defender.cardType == Monster ==> m == 1.0
    ensures attacker.cardType == Spell || defender.cardType == Spell ==>
              m == CycleFactor(attacker.elementType, defender.elementType)
  {
    var a, d := attacker.elementType, defender.elementType;
    var m0 := 1.0;
    var m1 := if a == Water && d == Fire then 2.0 else m0;
    var m2 := if a == Fire && d == Normal then 2.0 else m1;
    var m3 := if a == Normal && d == Water then 2.0 else m2;
    var m4 := if a == Fire && d == Water then 0.5 else m3;
    var m5 := if a == Normal && d == Fire then 0.5 else m4;
    var m6 := if a == Water && d == Normal then 0.5 else m5;
    if attacker.cardType == Monster && defender.cardType == Monster then 1.0 else m6
  }

  /** Damage dealt by `attacker` to `defender` under weather `w`: nothing in
      a counter match-up, otherwise the card's damage times the element and
      weather factors. */
  function CalculateDamage(attacker: Card, defender: Card, w: Weather): (r: real)
    ensures Countered(attacker, defender) ==> r == 0.0
  {
    if attacker.monsterType == Goblin && defender.monsterType == Dragon then 0.0
    else if attacker.monsterType == Ork && defender.monsterType == Wizard then 0.0
    else if attacker.monsterType == Knight && defender.cardType == Spell && defender.elementType == Water then 0.0
    else if attacker.cardType == Spell && defender.monsterType == Kraken then 0.0
    else if attacker.monsterType == Dragon && defender.monsterType == Elf && defender.elementType == Fire then 0.0
    else
      var weatherMultiplier := WeatherMultiplier(w, attacker.elementType);
      var elementMultiplier := ElementMultiplier(attacker, defender);
      attacker.damage * elementMultiplier * weatherMultiplier
  }

  /** Outside the counter match-ups, damage is the card's damage times the
      elemental cycle factor (only when a spell takes part) times 2 when the
      weather favours the attacker's element. */
  lemma DamageFormula(attacker: Card, defender: Card, w: Weather)
    ensures !Countered(attacker, defender) && attacker.cardType == Monster && defender.cardType == Monster ==>
              CalculateDamage(attacker, defender, w)
              == attacker.damage * (if Favours(w, attacker.elementType) then 2.0 else 1.0)
    ensures !Countered(attacker, defender) && (attacker.cardType == Spell || defender.cardType == Spell) ==>
              CalculateDamage(attacker, defender, w)
              == attacker.damage * CycleFactor(attacker.elementType, defender.elementType)
                 * (if Favours(w, attacker.elementType) then 2.0 else 1.0)
  {
  }

  /** A counter match-up deals nothing whatever the weather and the
      attacker's damage. */
  lemma CounterIgnoresWeatherAndDamage(attacker: Card, defender: Card, w: Weather, damage: real)
    requires Countered(attacker, defender)
    ensures CalculateDamage(attacker.(damage := damage), defender, w) == 0.0
  {
  }

  /** The weather only ever doubles: the damage under `w` is twice the
      damage under `Other` exactly when `w` favours the attacker's element
      and no counter applies, and equal to it otherwise. */
  lemma WeatherDoublesFavouredDamage(attacker: Card, defender: Card, w: Weather)
    ensures Favours(w, attacker.elementType) && !Countered(attacker, defender) ==>
              CalculateDamage(attacker, defender, w) == 2.0 * CalculateDamage(attacker, defender, Other)
    ensures !Favours(w, attacker.elementType) || Countered(attacker, defender) ==>
              CalculateDamage(attacker, defender, w) == CalculateDamage(attacker, defender, Other)
  {
    DamageFormula(attacker, defender, w);
    DamageFormula(attacker, defender, Other);
  }

  /** A card with non-negative damage never deals negative damage. */
  lemma DamageIsNonNegative(attacker: Card, defender: Card, w: Weather)
    requires attacker.damage >= 0.0
    ensures CalculateDamage(attacker, defender, w) >= 0.0
  {
    DamageFormula(attacker, defender, w);
  }

  /** A countered card loses its round against a card with positive damage
      that is not itself countered by it. */
  lemma CounteredCardLosesRound(c1: Card, c2: Card, w: Weather)
    requires Countered(c1, c2) && !Countered(c2, c1) && c2.damage > 0.0
    ensures CalculateDamage(c1, c2, w) < CalculateDamage(c2, c1, w)
  {
    DamageFormula(c2, c1, w);
    assert CycleFactor(c2.elementType, c1.elementType) > 0.0;
  }

  /** The damage cases of the battle unit tests. */
  lemma DamageExamples()
    ensures CalculateDamage(Card("", "FireSpell", 30.0, None, Spell, Fire),
                            Card("", "WaterMonster", 50.0, None, Monster, Water), Rain) == 15.0
    ensures CalculateDamage(Card("", "WaterSpell", 50.0, None, Spell, Water),
                            Card("", "FireMonster", 30.0, None, Monster, Fire), Rain) == 200.0
    ensures CalculateDamage(Card("", "Goblin", 20.0, Goblin, Monster, Normal),
                            Card("", "Dragon", 50.0, Dragon, Monster, Normal), Sunny) == 0.0
  {
  }

  // ---------------------------------------------------------------------
  // Rounds

  datatype User = User(id: int, username: string, elo: int)

  /** A player and the cards it holds during the battle. */
  datatype Player = Player(user: User, cards: Deck)

  /** A battle log line. Lines whose text is fixed are kept as strings; the
      weather and damage lines keep their values, because their text depends
      on how the runtime prints enumerations and doubles. */
  datatype LogEntry =
    | Line(text: string)
    | WeatherLine(initial: bool, weather: Weather)
    | DamageLine(damage1: real, damage2: real)

  /** What happened in one round: its number, the two cards drawn, the
      weather in force and the damage each card dealt. */
  datatype RoundRecord = RoundRecord(round: nat, card1: Card, card2: Card, weather: Weather, damage1: real, damage2: real)

  /** The random choices of one battle: the first weather, the weather drawn
      when round `i` re-rolls it, and the card indices drawn per round. */
  datatype Chance = Chance(initialWeather: Weather, reroll: nat -> Weather, picks: Picks)

  datatype Battle = Battle(player1: Player, player2: Player, weather: Weather, log: seq<LogEntry>, rounds: seq<RoundRecord>)

  /** The loop bound: rounds 1 to `RoundLimit - 1` may be played. */
  const RoundLimit: nat := 100
  /** The weather is re-rolled in every round whose number is a multiple of this. */
  const WeatherPeriod: nat := 10

  function Total(b: Battle): multiset<Card> {
    multiset(b.player1.cards) + multiset(b.player2.cards)
  }

  /** The decks after a round in which the two cards dealt `damage1` and
      `damage2`: the higher damage captures the other card, equal damage
      changes nothing. */
  function Exchange(deck1: Deck, deck2: Deck, c1: Card, c2: Card, damage1: real, damage2: real): (r: (Deck, Deck))
    requires c1 in deck1 && c2 in deck2
    ensures multiset(r.0) + multiset(r.1) == multiset(deck1) + multiset(deck2)
    ensures damage1 > damage2 ==>
              multiset(r.0) == multiset(deck1) + multiset{c2} && multiset(r.1) == multiset(deck2) - multiset{c2}
    ensures damage1 < damage2 ==>
              multiset(r.1) == multiset(deck2) + multiset{c1} && multiset(r.0) == multiset(deck1) - multiset{c1}
    ensures damage1 == damage2 ==> r == (deck1, deck2)
  {
    if damage1 > damage2 then
      Capture(deck1, deck2, c2)
    else if damage1 < damage2 then
      var (won, lost) := Capture(deck2, deck1, c1);
      (lost, won)
    else
      (deck1, deck2)
  }

  /** The log line naming the winner of a round, or the draw line. */
  function RoundResultLine(b: Battle, c1: Card, c2: Card, damage1: real, damage2: real): LogEntry {
    if damage1 > damage2 then Line(b.player1.user.username + " wins with " + c1.name)
    else if damage1 < damage2 then Line(b.player2.user.username + " wins with " + c2.name)
    else Line("The Round is a Draw")
  }

  /** Plays round `i` with the two drawn cards: the decks change as
      `Exchange` says for the damages `CalculateDamage` gives in the current
      weather, and the round is logged and recorded. */
  function PlayRound(b: Battle, i: nat, c1: Card, c2: Card): (r: Battle)
    requires c1 in b.player1.cards && c2 in b.player2.cards
    ensures Total(r) == Total(b)
    ensures (r.player1.cards, r.player2.cards)
            == Exchange(b.player1.cards, b.player2.cards, c1, c2,
                        CalculateDamage(c1, c2, b.weather), CalculateDamage(c2, c1, b.weather))
    ensures r.rounds == b.rounds + [RoundRecord(i, c1, c2, b.weather,
                                                CalculateDamage(c1, c2, b.weather), CalculateDamage(c2, c1, b.weather))]
    ensures r.player1.user == b.player1.user && r.player2.user == b.player2.user && r.weather == b.weather
    ensures Seqs.StartsWith(r.log, b.log)
  {
    var damage1 := CalculateDamage(c1, c2, b.weather);
    var damage2 := CalculateDamage(c2, c1, b.weather);
    var (deck1, deck2) := Exchange(b.player1.cards, b.player2.cards, c1, c2, damage1, damage2);
    var log := b.log + [Line("Round " + Text.IntToString(i) + ": " + c1.name + " vs " + c2.name),
                        DamageLine(damage1, damage2),
                        RoundResultLine(b, c1, c2, damage1, damage2)];
    assert log[..|b.log|] == b.log;
    Battle(b.player1.(cards := deck1), b.player2.(cards := deck2), b.weather, log,
           b.rounds + [RoundRecord(i, c1, c2, b.weather, damage1, damage2)])
  }

  /** A spell that is also a Kraken counters itself: when both players draw
      such a card, both deal nothing and the round changes no deck,
      although a counter applies. */
  lemma MutualCounterDraws(b: Battle, i: nat, c: Card)
    requires c.cardType == Spell && c.monsterType == Kraken
    requires c in b.player1.cards && c in b.player2.cards
    ensures Countered(c, c) && CalculateDamage(c, c, b.weather) == 0.0
    ensures var r := PlayRound(b, i, c, c);
      r.player1.cards == b.player1.cards && r.player2.cards == b.player2.cards
  {
  }

  /** A round appends exactly three log lines: the match-up with the round
      number and both card names, the two damages, and the line naming the
      round's winner with its card, or the draw line. */
  lemma PlayRoundLog(b: Battle, i: nat, c1: Card, c2: Card)
    requires c1 in b.player1.cards && c2 in b.player2.cards
    ensures var r := PlayRound(b, i, c1, c2);
            var damage1 := CalculateDamage(c1, c2, b.weather);
            var damage2 := CalculateDamage(c2, c1, b.weather);
      && |r.log| == |b.log| + 3 && Seqs.StartsWith(r.log, b.log)
      && r.log[|b.log|] == Line("Round " + Text.IntToString(i) + ": " + c1.name + " vs " + c2.name)
      && r.log[|b.log| + 1] == DamageLine(damage1, damage2)
      && (damage1 > damage2 ==> r.log[|b.log| + 2] == Line(b.player1.user.username + " wins with " + c1.name))
      && (damage1 < damage2 ==> r.log[|b.log| + 2] == Line(b.player2.user.username + " wins with " + c2.name))
      && (damage1 == damage2 ==> r.log[|b.log| + 2] == Line("The Round is a Draw"))
  {
  }

  /** Whether round `i` re-rolls the weather, before anything else happens in it. */
  function Reroll(b: Battle, i: nat, chance: Chance): Battle {
    if i % WeatherPeriod == 0 then
      b.(weather := chance.reroll(i), log := b.log + [WeatherLine(false, chance.reroll(i))])
    else b
  }

  /** Draws one card from each deck and plays round `i` with them. */
  function DrawAndPlay(b: Battle, i: nat, chance: Chance): (r: Battle)
    requires |b.player1.cards| > 0 && |b.player2.cards| > 0
    ensures Total(r) == Total(b)
    ensures r.player1.user == b.player1.user && r.player2.user == b.player2.user && r.weather == b.weather
    ensures |r.rounds| == |b.rounds| + 1
  {
    PlayRound(b, i, Pick(b.player1.cards, chance.picks.first(i)), Pick(b.player2.cards, chance.picks.second(i)))
  }

  /** A played round extends the log and the round record; the new record
      holds the round number, the weather, two drawn cards and the damage
      `CalculateDamage` gives them. */
  lemma DrawAndPlayRecord(b: Battle, i: nat, chance: Chance)
    requires |b.player1.cards| > 0 && |b.player2.cards| > 0
    ensures var r := DrawAndPlay(b, i, chance);
      && Seqs.StartsWith(r.log, b.log)
      && Seqs.StartsWith(r.rounds, b.rounds)
      && var last := r.rounds[|b.rounds|];
      && last.round == i && last.weather == b.weather
      && last.card1 in b.player1.cards && last.card2 in b.player2.cards
      && last.damage1 == CalculateDamage(last.card1, last.card2, last.weather)
      && last.damage2 == CalculateDamage(last.card2, last.card1, last.weather)
  {
    var r := DrawAndPlay(b, i, chance);
    assert r.rounds[..|b.rounds|] == b.rounds;
  }

  /** The loop from round `i` on: re-roll the weather when due, stop if a
      deck is empty, otherwise draw a card from each deck and play. */
  function Iterate(b: Battle, i: nat, chance: Chance): (r: Battle)
    requires 1 <= i <= RoundLimit
    ensures Total(r) == Total(b)
    ensures r.player1.user == b.player1.user && r.player2.user == b.player2.user
    ensures |b.rounds| <= |r.rounds| <= |b.rounds| + (RoundLimit - i)
    ensures |r.rounds| < |b.rounds| + (RoundLimit - i) ==> |r.player1.cards| == 0 || |r.player2.cards| == 0
    decreases RoundLimit - i
  {
    if i == RoundLimit then b
    else
      var b1 := Reroll(b, i, chance);
      if |b1.player1.cards| == 0 || |b1.player2.cards| == 0 then b1
      else Iterate(DrawAndPlay(b1, i, chance), i + 1, chance)
  }

  /** The weather check only appends to the log: in a round numbered a
      multiple of 10 the weather becomes that round's roll and the change is
      logged; in any other round nothing changes. Decks and the round record
      are never touched. */
  lemma RerollLog(b: Battle, i: nat, chance: Chance)
    ensures var r := Reroll(b, i, chance);
      && Seqs.StartsWith(r.log, b.log)
      && r.player1 == b.player1 && r.player2 == b.player2 && r.rounds == b.rounds
      && (i % WeatherPeriod == 0 ==>
            r.weather == chance.reroll(i) && r.log == b.log + [WeatherLine(false, chance.reroll(i))])
      && (i % WeatherPeriod != 0 ==> r.weather == b.weather && r.log == b.log)
  {
    assert Reroll(b, i, chance).log[..|b.log|] == b.log;
  }

  /** The loop only ever appends to the log and to the round record. */
  lemma {:induction false} IterateExtends(b: Battle, i: nat, chance: Chance)
    requires 1 <= i <= RoundLimit
    ensures Seqs.StartsWith(Iterate(b, i, chance).log, b.log)
    ensures Seqs.StartsWith(Iterate(b, i, chance).rounds, b.rounds)
    ensures Plays(b, i, chance) ==> Seqs.StartsWith(Iterate(b, i, chance).log, Turn(b, i, chance).log)
    decreases RoundLimit - i
  {
    if Plays(b, i, chance) {
      IterateExtends(Turn(b, i, chance), i + 1, chance);
      ExtendsAfterTurn(b, i, chance);
    } else {
      IterateStop(b, i, chance);
      RerollLog(b, i, chance);
    }
  }

  /** If the loop extends what a turn that plays a round left, it extends
      what the turn started from. */
  lemma ExtendsAfterTurn(b: Battle, i: nat, chance: Chance)
    requires 1 <= i && Plays(b, i, chance)
    requires Seqs.StartsWith(Iterate(Turn(b, i, chance), i + 1, chance).log, Turn(b, i, chance).log)
    requires Seqs.StartsWith(Iterate(Turn(b, i, chance), i + 1, chance).rounds, Turn(b, i, chance).rounds)
    ensures Seqs.StartsWith(Iterate(b, i, chance).log, b.log)
    ensures Seqs.StartsWith(Iterate(b, i, chance).rounds, b.rounds)
    ensures Seqs.StartsWith(Iterate(b, i, chance).log, Turn(b, i, chance).log)
  {
    var b2 := Turn(b, i, chance);
    TurnExtends(b, i, chance);
    IterateStep(b, i, chance);
    var r := Iterate(b2, i + 1, chance);
    Seqs.StartsWithTransitive(r.log, b2.log, b.log);
    Seqs.StartsWithTransitive(r.rounds, b2.rounds, b.rounds);
  }

  /** Turn `i` of the loop plays a round: it is before the last index and
      both decks still hold cards after the weather check. */
  predicate Plays(b: Battle, i: nat, chance: Chance) {
    i < RoundLimit && |Reroll(b, i, chance).player1.cards| > 0 && |Reroll(b, i, chance).player2.cards| > 0
  }

  /** A turn of the loop that plays a round: the weather check, then a
      round with one drawn card from each deck. */
  function Turn(b: Battle, i: nat, chance: Chance): Battle
    requires Plays(b, i, chance)
  {
    DrawAndPlay(Reroll(b, i, chance), i, chance)
  }

  /** A turn that plays a round only appends to the log and the round record. */
  lemma TurnExtends(b: Battle, i: nat, chance: Chance)
    requires Plays(b, i, chance)
    ensures Seqs.StartsWith(Turn(b, i, chance).log, b.log)
    ensures Seqs.StartsWith(Turn(b, i, chance).rounds, b.rounds)
  {
    var b1 := Reroll(b, i, chance);
    RerollLog(b, i, chance);
    DrawAndPlayRecord(b1, i, chance);
    Seqs.StartsWithTransitive(Turn(b, i, chance).log, b1.log, b.log);
  }

  /** A turn that plays a round logs something; its first entry is the
      weather change exactly when the turn number is a multiple of 10. */
  lemma TurnLogsWeather(b: Battle, i: nat, chance: Chance)
    requires Plays(b, i, chance)
    ensures var t := Turn(b, i, chance);
      && |t.log| > |b.log|
      && (i % WeatherPeriod == 0 ==> t.log[|b.log|] == WeatherLine(false, chance.reroll(i)))
      && (i % WeatherPeriod != 0 ==> !t.log[|b.log|].WeatherLine?)
  {
    var b1 := Reroll(b, i, chance);
    RerollLog(b, i, chance);
    PlayRoundLog(b1, i, Pick(b1.player1.cards, chance.picks.first(i)), Pick(b1.player2.cards, chance.picks.second(i)));
    var t := Turn(b, i, chance);
    if i % WeatherPeriod == 0 {
      assert t.log[|b.log|] == t.log[..|b1.log|][|b.log|] == b1.log[|b.log|];
    }
  }

  /** One turn of the loop: after the weather check, a round is played and
      the loop goes on from the next index. */
  lemma IterateStep(b: Battle, i: nat, chance: Chance)
    requires 1 <= i && Plays(b, i, chance)
    ensures Iterate(b, i, chance) == Iterate(Turn(b, i, chance), i + 1, chance)
  {
  }

  /** A turn that plays no round ends the loop: at the last index with the
      battle as it is, before it with the outcome of the weather check. */
  lemma IterateStop(b: Battle, i: nat, chance: Chance)
    requires 1 <= i <= RoundLimit && !Plays(b, i, chance)
    ensures i == RoundLimit ==> Iterate(b, i, chance) == b
    ensures i < RoundLimit ==> Iterate(b, i, chance) == Reroll(b, i, chance)
  {
  }

  /** The loop leaves the round record alone once it stops. */
  lemma IterateStopKeepsRounds(b: Battle, i: nat, chance: Chance)
    requires 1 <= i <= RoundLimit && !Plays(b, i, chance)
    ensures Iterate(b, i, chance).rounds == b.rounds
  {
  }

  // ---------------------------------------------------------------------
  // Verdict and log

  /** Player 1 without cards loses, else player 2 without cards loses, else
      the battle is drawn whatever the two counts are. */
  function Decide(p1: Player, p2: Player): (o: Outcome)
    ensures o == Player2Wins <==> |p1.cards| == 0
    ensures o == Player1Wins <==> |p1.cards| > 0 && |p2.cards| == 0
    ensures o == Draw <==> |p1.cards| > 0 && |p2.cards| > 0
  {
    if |p1.cards| == 0 then Player2Wins
    else if |p2.cards| == 0 then Player1Wins
    else Draw
  }

  const CountTail: string := " cards left"

  /** The line saying how many cards a player holds at the end; the count
      reads back out of it. */
  function CountLine(p: Player): (s: string)
    ensures CountOf(s, p.user.username) == Wrappers.Some(|p.cards|)
  {
    var head := p.user.username + " has ";
    var count := Text.IntToString(|p.cards|);
    var s := head + count + CountTail;
    assert s[..|head|] == head;
    assert s[|s| - |CountTail|..] == CountTail;
    assert s[|head|..|s| - |CountTail|] == count;
    Text.ParseIntToString(|p.cards|);
    s
  }

  /** Reads the card count back out of the end-of-battle line of the
      player named `username`, or `None` if the line is not such a line.
      A count it reads pins the whole line, digits included. */
  function CountOf(line: string, username: string): (r: Wrappers.Option<int>)
    ensures r.Some? ==> line == username + " has " + Text.IntToString(r.value) + CountTail
  {
    var head := username + " has ";
    if |line| >= |head| + |CountTail| && Seqs.StartsWith(line, head) && Seqs.EndsWith(line, CountTail)
    then
      var count := line[|head|..|line| - |CountTail|];
      var r := Text.ParseInt(count);
      assert line == line[..|head|] + count + line[|line| - |CountTail|..];
      if r.Some? then Text.ParseIntExactly(count, r.value); r else r
    else Wrappers.None
  }

  /** The closing line: the player whose opponent holds no card wins,
      player 1's deck being checked first; otherwise the battle is drawn. */
  function VerdictLine(p1: Player, p2: Player): (s: string)
    ensures |p1.cards| == 0 ==> s == "-->| " + p2.user.username + " wins the battle |<--"
    ensures |p1.cards| > 0 && |p2.cards| == 0 ==> s == "-->| " + p1.user.username + " wins the battle |<--"
    ensures |p1.cards| > 0 && |p2.cards| > 0 ==> s == "-->| The Battle is a Draw |<--"
  {
    match Decide(p1, p2)
    case Player2Wins => "-->| " + p2.user.username + " wins the battle |<--"
    case Player1Wins => "-->| " + p1.user.username + " wins the battle |<--"
    case Draw => "-->| The Battle is a Draw |<--"
  }

  /** The four lines that close every battle log: the end marker, each
      player's remaining card count, and the verdict, which names the
      player whose opponent ran out of cards, player 1's deck being checked
      first, or else declares a draw. */
  function Summary(p1: Player, p2: Player): (lines: seq<LogEntry>)
    ensures |lines| == 4 && lines[0] == Line("Battle finished")
    ensures lines[1].Line? && CountOf(lines[1].text, p1.user.username) == Wrappers.Some(|p1.cards|)
    ensures lines[2].Line? && CountOf(lines[2].text, p2.user.username) == Wrappers.Some(|p2.cards|)
    ensures |p1.cards| == 0 ==> lines[3] == Line("-->| " + p2.user.username + " wins the battle |<--")
    ensures |p1.cards| > 0 && |p2.cards| == 0 ==> lines[3] == Line("-->| " + p1.user.username + " wins the battle |<--")
    ensures |p1.cards| > 0 && |p2.cards| > 0 ==> lines[3] == Line("-->| The Battle is a Draw |<--")
  {
    [Line("Battle finished"), Line(CountLine(p1)), Line(CountLine(p2)), Line(VerdictLine(p1, p2))]
  }

  /** Runs a whole battle. The players come back with the decks they hold
      at the end. */
  function StartBattle(p1: Player, p2: Player, chance: Chance): (r: Battle)
    ensures r.player1.user == p1.user && r.player2.user == p2.user
    ensures multiset(r.player1.cards) + multiset(r.player2.cards) == multiset(p1.cards) + multiset(p2.cards)
    ensures |r.player1.cards| + |r.player2.cards| == |p1.cards| + |p2.cards|
    ensures |r.rounds| <= RoundLimit - 1
    ensures |r.rounds| < RoundLimit - 1 ==> |r.player1.cards| == 0 || |r.player2.cards| == 0
    ensures |r.log| >= 5 && r.log[0] == WeatherLine(true, chance.initialWeather)
    ensures r.log[|r.log| - 4..] == Summary(r.player1, r.player2)
  {
    var b0 := Battle(p1, p2, chance.initialWeather, [WeatherLine(true, chance.initialWeather)], []);
    var b := Iterate(b0, 1, chance);
    IterateExtends(b0, 1, chance);
    assert |multiset(b.player1.cards) + multiset(b.player2.cards)| == |p1.cards| + |p2.cards|;
    assert b.log[..1] == b0.log;
    var log := b.log + Summary(b.player1, b.player2);
    assert log[0] == b.log[..1][0];
    b.(log := log)
  }

  /** The winner ends up holding every card, and a battle that used up
      fewer than 99 rounds has a winner. */
  lemma WinnerHoldsEveryCard(p1: Player, p2: Player, chance: Chance)
    ensures var r := StartBattle(p1, p2, chance);
      && (Decide(r.player1, r.player2) == Player1Wins ==> |r.player1.cards| == |p1.cards| + |p2.cards|)
      && (Decide(r.player1, r.player2) == Player2Wins ==> |r.player2.cards| == |p1.cards| + |p2.cards|)
      && (|r.rounds| < RoundLimit - 1 ==> Decide(r.player1, r.player2) != Draw)
  {
  }

  /** Two players holding one identical card each draw every round, so
      the loop never changes their decks. */
  lemma {:induction false} MirrorDecksNeverChange(b: Battle, i: nat, chance: Chance, c: Card)
    requires 1 <= i <= RoundLimit
    requires b.player1.cards == [c] && b.player2.cards == [c]
    ensures Iterate(b, i, chance).player1.cards == [c] && Iterate(b, i, chance).player2.cards == [c]
    decreases RoundLimit - i
  {
    if i < RoundLimit {
      MirrorTurn(b, i, chance, c);
      IterateStep(b, i, chance);
      MirrorDecksNeverChange(Turn(b, i, chance), i + 1, chance, c);
    }
  }

  /** A turn between two one-card decks holding the same card plays a
      round and gives both decks back unchanged. */
  lemma MirrorTurn(b: Battle, i: nat, chance: Chance, c: Card)
    requires i < RoundLimit
    requires b.player1.cards == [c] && b.player2.cards == [c]
    ensures Plays(b, i, chance)
    ensures Turn(b, i, chance).player1.cards == [c] && Turn(b, i, chance).player2.cards == [c]
  {
    var b1 := Reroll(b, i, chance);
    RerollLog(b, i, chance);
    assert DrawAndPlay(b1, i, chance) == PlayRound(b1, i, c, c);
  }

  /** Round 1 never re-rolls; with cards on both sides it is played. */
  lemma FirstIteration(b: Battle, chance: Chance)
    requires |b.player1.cards| > 0 && |b.player2.cards| > 0
    ensures Iterate(b, 1, chance) == Iterate(DrawAndPlay(b, 1, chance), 2, chance)
  {
    assert Reroll(b, 1, chance) == b;
  }

  /** In the first battle unit test the Dragon captures the Goblin in round 1:
      whatever the weather favours, 50 or 100 beats 10 or 20. */
  lemma DragonTakesGoblin(b: Battle, chance: Chance)
    requires b.player1.cards == [Card("", "Dragon", 50.0, MonsterType.None, Monster, Fire)]
    requires b.player2.cards == [Card("", "Goblin", 10.0, MonsterType.None, Monster, Normal)]
    ensures |DrawAndPlay(b, 1, chance).player1.cards| == 2
    ensures |DrawAndPlay(b, 1, chance).player2.cards| == 0
  {
    var c1, c2 := b.player1.cards[0], b.player2.cards[0];
    assert Pick(b.player1.cards, chance.picks.first(1)) == c1;
    assert Pick(b.player2.cards, chance.picks.second(1)) == c2;
    DamageFormula(c1, c2, b.weather);
    DamageFormula(c2, c1, b.weather);
    assert CalculateDamage(c1, c2, b.weather) > CalculateDamage(c2, c1, b.weather);
    var r := PlayRound(b, 1, c1, c2);
    assert |multiset(r.player1.cards)| == 2 && |multiset(r.player2.cards)| == 0;
  }

  lemma GoblinTestFinalDecks(p1: Player, p2: Player, chance: Chance)
    requires p1.cards == [Card("", "Dragon", 50.0, MonsterType.None, Monster, Fire)]
    requires p2.cards == [Card("", "Goblin", 10.0, MonsterType.None, Monster, Normal)]
    ensures |StartBattle(p1, p2, chance).player1.cards| == 2
    ensures |StartBattle(p1, p2, chance).player2.cards| == 0
  {
    var b0 := Battle(p1, p2, chance.initialWeather, [WeatherLine(true, chance.initialWeather)], []);
    FirstIteration(b0, chance);
    DragonTakesGoblin(b0, chance);
    var b1 := DrawAndPlay(b0, 1, chance);
    RerollPrecedesStop(b1, 2, chance);
  }

  /** The last log line announces the verdict on the final decks. */
  lemma LastLineIsVerdict(p1: Player, p2: Player, chance: Chance)
    ensures var r := StartBattle(p1, p2, chance);
      r.log[|r.log| - 1] == Line(VerdictLine(r.player1, r.player2))
  {
    var r := StartBattle(p1, p2, chance);
    assert r.log[|r.log| - 1] == r.log[|r.log| - 4..][3];
  }

  /** The first battle unit test: a Fire Dragon of damage 50 against a
      Normal Goblin of damage 10 wins for player 1 whatever the weather. */
  lemma WinnerExample(chance: Chance)
    ensures var dragon := Card("", "Dragon", 50.0, MonsterType.None, Monster, Fire);
      var goblin := Card("", "Goblin", 10.0, MonsterType.None, Monster, Normal);
      var r := StartBattle(Player(User(0, "Player1", 0), [dragon]), Player(User(0, "Player2", 0), [goblin]), chance);
      r.log[|r.log| - 1] == Line("-->| Player1 wins the battle |<--")
  {
    var dragon := Card("", "Dragon", 50.0, MonsterType.None, Monster, Fire);
    var goblin := Card("", "Goblin", 10.0, MonsterType.None, Monster, Normal);
    var p1, p2 := Player(User(0, "Player1", 0), [dragon]), Player(User(0, "Player2", 0), [goblin]);
    GoblinTestFinalDecks(p1, p2, chance);
    LastLineIsVerdict(p1, p2, chance);
    var r := StartBattle(p1, p2, chance);
    PlayerOneVerdict(r.player1, r.player2);
  }

  lemma PlayerOneVerdict(p1: Player, p2: Player)
    requires p1.user.username == "Player1" && |p1.cards| > 0 && |p2.cards| == 0
    ensures VerdictLine(p1, p2) == "-->| Player1 wins the battle |<--"
  {
  }

  /** The players a battle returns are those the round loop leaves. */
  lemma StartBattleReturnsLoopPlayers(p1: Player, p2: Player, chance: Chance)
    ensures var b0 := Battle(p1, p2, chance.initialWeather, [WeatherLine(true, chance.initialWeather)], []);
      var r := StartBattle(p1, p2, chance);
      r.player1 == Iterate(b0, 1, chance).player1 && r.player2 == Iterate(b0, 1, chance).player2
  {
  }

  lemma DrawVerdict(p1: Player, p2: Player)
    requires |p1.cards| > 0 && |p2.cards| > 0
    ensures VerdictLine(p1, p2) == "-->| The Battle is a Draw |<--"
  {
  }

  /** Two players holding one identical card each always draw the battle. */
  lemma MirrorBattleDraws(p1: Player, p2: Player, chance: Chance, c: Card)
    requires p1.cards == [c] && p2.cards == [c]
    ensures var r := StartBattle(p1, p2, chance);
      r.log[|r.log| - 1] == Line("-->| The Battle is a Draw |<--")
  {
    var b0 := Battle(p1, p2, chance.initialWeather, [WeatherLine(true, chance.initialWeather)], []);
    MirrorDecksNeverChange(b0, 1, chance, c);
    StartBattleReturnsLoopPlayers(p1, p2, chance);
    LastLineIsVerdict(p1, p2, chance);
    var r := StartBattle(p1, p2, chance);
    DrawVerdict(r.player1, r.player2);
  }

  /** The second battle unit test: two equal Dragons draw. */
  lemma DrawExample(chance: Chance)
    ensures var dragon := Card("", "Dragon", 50.0, MonsterType.None, Monster, Fire);
      var r := StartBattle(Player(User(0, "Player1", 0), [dragon]), Player(User(0, "Player2", 0), [dragon]), chance);
      r.log[|r.log| - 1] == Line("-->| The Battle is a Draw |<--")
  {
    var dragon := Card("", "Dragon", 50.0, MonsterType.None, Monster, Fire);
    MirrorBattleDraws(Player(User(0, "Player1", 0), [dragon]), Player(User(0, "Player2", 0), [dragon]), chance, dragon);
  }

  // ---------------------------------------------------------------------
  // Weather schedule

  /** The weather in force during round `n`: the first weather until round
      9, then the weather rolled in the last round numbered a multiple of 10. */
  function WeatherInForce(chance: Chance, n: nat): Weather {
    if n < WeatherPeriod then chance.initialWeather else chance.reroll(n - n % WeatherPeriod)
  }

  /** The record of round `k + 1` has its number, was played in the weather
      the schedule prescribes, and holds the damage `CalculateDamage` gives. */
  predicate RecordFollows(rec: RoundRecord, k: nat, chance: Chance) {
    && rec.round == k + 1
    && rec.weather == WeatherInForce(chance, k + 1)
    && rec.damage1 == CalculateDamage(rec.card1, rec.card2, rec.weather)
    && rec.damage2 == CalculateDamage(rec.card2, rec.card1, rec.weather)
  }

  /** Every recorded round follows the schedule. */
  predicate FollowsSchedule(rounds: seq<RoundRecord>, chance: Chance) {
    forall k | 0 <= k < |rounds| :: RecordFollows(rounds[k], k, chance)
  }

  /** Round `n` keeps the weather of round `n - 1` unless `n` is a multiple
      of 10, in which case it takes that round's roll. */
  lemma WeatherInForceStep(chance: Chance, n: nat)
    requires n >= 1
    ensures n % WeatherPeriod == 0 ==> WeatherInForce(chance, n) == chance.reroll(n)
    ensures n % WeatherPeriod != 0 ==> WeatherInForce(chance, n) == WeatherInForce(chance, n - 1)
  {
    if n % WeatherPeriod != 0 && n >= WeatherPeriod {
      assert (n - 1) % WeatherPeriod == n % WeatherPeriod - 1;
    }
  }

  /** Playing round `i` in the scheduled weather extends a schedule-following record. */
  lemma ScheduleStep(b: Battle, i: nat, chance: Chance)
    requires 1 <= i && |b.rounds| == i - 1 && b.weather == WeatherInForce(chance, i)
    requires |b.player1.cards| > 0 && |b.player2.cards| > 0
    requires FollowsSchedule(b.rounds, chance)
    ensures FollowsSchedule(DrawAndPlay(b, i, chance).rounds, chance)
  {
    DrawAndPlayRecord(b, i, chance);
    var r := DrawAndPlay(b, i, chance).rounds;
    assert RecordFollows(r[|b.rounds|], |b.rounds|, chance);
    FollowsScheduleExtend(b.rounds, r, chance);
  }

  /** A record that follows the schedule still does after one more round
      recorded on schedule. */
  lemma FollowsScheduleExtend(rounds: seq<RoundRecord>, longer: seq<RoundRecord>, chance: Chance)
    requires Seqs.StartsWith(longer, rounds) && |longer| == |rounds| + 1
    requires FollowsSchedule(rounds, chance) && RecordFollows(longer[|rounds|], |rounds|, chance)
    ensures FollowsSchedule(longer, chance)
  {
    forall k | 0 <= k < |rounds|
      ensures RecordFollows(longer[k], k, chance)
    {
      assert longer[k] == longer[..|rounds|][k] == rounds[k];
    }
  }

  lemma {:induction false} IterateFollowsSchedule(b: Battle, i: nat, chance: Chance)
    requires OnSchedule(b, i, chance)
    ensures FollowsSchedule(Iterate(b, i, chance).rounds, chance)
    decreases RoundLimit - i
  {
    if Plays(b, i, chance) {
      TurnFollowsSchedule(b, i, chance);
      IterateStep(b, i, chance);
      IterateFollowsSchedule(Turn(b, i, chance), i + 1, chance);
    } else {
      IterateStopKeepsRounds(b, i, chance);
    }
  }

  /** The loop is about to run turn `i` of a battle whose `i - 1` recorded
      rounds follow the schedule, in the weather of round `i - 1`. */
  predicate OnSchedule(b: Battle, i: nat, chance: Chance) {
    && 1 <= i <= RoundLimit
    && |b.rounds| == i - 1 && b.weather == WeatherInForce(chance, i - 1)
    && FollowsSchedule(b.rounds, chance)
  }

  /** One turn of the loop that plays a round keeps the record on schedule. */
  lemma TurnFollowsSchedule(b: Battle, i: nat, chance: Chance)
    requires OnSchedule(b, i, chance) && Plays(b, i, chance)
    ensures OnSchedule(Turn(b, i, chance), i + 1, chance)
  {
    var b1 := Reroll(b, i, chance);
    WeatherInForceStep(chance, i);
    ScheduleStep(b1, i, chance);
  }

  /** The weather of every round of a battle follows the ten-round schedule. */
  lemma BattleFollowsSchedule(p1: Player, p2: Player, chance: Chance)
    ensures FollowsSchedule(StartBattle(p1, p2, chance).rounds, chance)
  {
    var b0 := Battle(p1, p2, chance.initialWeather, [WeatherLine(true, chance.initialWeather)], []);
    IterateFollowsSchedule(b0, 1, chance);
  }

  /** The weather check comes before the empty-deck check: in a round
      numbered a multiple of 10, a battle with an empty deck still logs the
      new weather before it stops, and in any other round it stops at once. */
  lemma RerollPrecedesStop(b: Battle, i: nat, chance: Chance)
    requires 1 <= i < RoundLimit
    requires |b.player1.cards| == 0 || |b.player2.cards| == 0
    ensures i % WeatherPeriod == 0 ==>
              Iterate(b, i, chance).log == b.log + [WeatherLine(false, chance.reroll(i))]
    ensures i % WeatherPeriod != 0 ==> Iterate(b, i, chance) == b
  {
  }

  /** Whatever the decks hold, a turn of the loop logs a weather change
      as its first entry exactly when its number is a multiple of 10; in
      any other turn the next entry, if there is one, is not a weather line. */
  lemma IterateLogsWeatherChange(b: Battle, i: nat, chance: Chance)
    requires 1 <= i < RoundLimit
    ensures var r := Iterate(b, i, chance);
      && (i % WeatherPeriod == 0 ==> |r.log| > |b.log| && r.log[|b.log|] == WeatherLine(false, chance.reroll(i)))
      && (i % WeatherPeriod != 0 && |r.log| > |b.log| ==> !r.log[|b.log|].WeatherLine?)
  {
    if Plays(b, i, chance) {
      IterateExtends(b, i, chance);
      TurnLogsWeather(b, i, chance);
      Seqs.StartsWithIndex(Iterate(b, i, chance).log, Turn(b, i, chance).log, |b.log|);
    } else {
      WeatherWithoutTurn(b, i, chance);
    }
  }

  /** A turn that plays no round logs at most the weather change. */
  lemma WeatherWithoutTurn(b: Battle, i: nat, chance: Chance)
    requires 1 <= i < RoundLimit && !Plays(b, i, chance)
    ensures var r := Iterate(b, i, chance);
      && (i % WeatherPeriod == 0 ==> |r.log| > |b.log| && r.log[|b.log|] == WeatherLine(false, chance.reroll(i)))
      && (i % WeatherPeriod != 0 ==> |r.log| == |b.log|)
  {
    IterateStop(b, i, chance);
    RerollLog(b, i, chance);
  }

  // ---------------------------------------------------------------------
  // Rating update

  const WinBonus: int := 3
  const LossPenalty: int := 5

  /** The users as written to the rating store, player 1 first: +3 for a
      player whose opponent has no cards (player 2 checked first), -5 for
      that opponent, no change when both hold cards. */
  function UpdatePlayerStats(p1: Player, p2: Player): (writes: seq<User>)
    ensures |writes| == 2
    ensures writes[0] == p1.user.(elo := writes[0].elo) && writes[1] == p2.user.(elo := writes[1].elo)
    ensures |p2.cards| == 0 ==>
              writes[0].elo == p1.user.elo + WinBonus && writes[1].elo == p2.user.elo - LossPenalty
    ensures |p2.cards| > 0 && |p1.cards| == 0 ==>
              writes[0].elo == p1.user.elo - LossPenalty && writes[1].elo == p2.user.elo + WinBonus
    ensures |p1.cards| > 0 && |p2.cards| > 0 ==>
              writes[0].elo == p1.user.elo && writes[1].elo == p2.user.elo
  {
    var (u1, u2) :=
      if |p2.cards| == 0 then (p1.user.(elo := p1.user.elo + 3), p2.user.(elo := p2.user.elo - 5))
      else if |p1.cards| == 0 then (p1.user.(elo := p1.user.elo - 5), p2.user.(elo := p2.user.elo + 3))
      else (p1.user, p2.user);
    [u1, u2]
  }

  /** Whenever a card is left on the table, the rating change matches the
      verdict: the winner gains 3, the loser loses 5, a draw changes nothing. */
  lemma RatingFollowsVerdict(p1: Player, p2: Player)
    requires |p1.cards| + |p2.cards| > 0
    ensures var w := UpdatePlayerStats(p1, p2);
      && (Decide(p1, p2) == Player1Wins ==> w[0].elo == p1.user.elo + 3 && w[1].elo == p2.user.elo - 5)
      && (Decide(p1, p2) == Player2Wins ==> w[0].elo == p1.user.elo - 5 && w[1].elo == p2.user.elo + 3)
      && (Decide(p1, p2) == Draw ==> w[0].elo == p1.user.elo && w[1].elo == p2.user.elo)
  {
  }

  /** With no card on either side the two checks disagree: the verdict
      names player 2 while the rating update rewards player 1. A battle
      started from two four-card decks never gets there. */
  lemma RatingAndVerdictDisagreeOnEmptyTable(p1: Player, p2: Player)
    requires |p1.cards| == 0 && |p2.cards| == 0
    ensures Decide(p1, p2) == Player2Wins
    ensures UpdatePlayerStats(p1, p2)[0].elo == p1.user.elo + 3
  {
  }

  /** The rating cases of the battle unit tests. */
  lemma RatingExamples(c: Card)
    ensures var w := UpdatePlayerStats(Player(User(0, "Player1", 100), [c]), Player(User(0, "Player2", 100), []));
      w[0].elo == 103 && w[1].elo == 95
    ensures var w := UpdatePlayerStats(Player(User(0, "Player1", 120), []), Player(User(0, "Player2", 150), [c]));
      w[0].elo == 115 && w[1].elo == 153
  {
  }
}

=== FILE: wrappers.dfy ===
/** The optional value used by the parsers and by the join result. */
module Wrappers {
  datatype Option<+T> = None | Some(value: T)
}
